=== FILE: README.md ===
# Web-Server request handlers in Dafny

A model of the request-handling core of a small C++ HTTP server, covering both handlers.

The GET handler (`GetHandler`) works in three steps:
- It maps a request to a file, from under `public/` unless a protected route covers the resource.
- It builds a fixed response head and writes it with a bounded number of retries.
- It copies the file to the socket chunk by chunk, retrying failed writes with a linear backoff.

The POST handler (`PostHandler`) works in two steps:
- It classifies a request against the configured route table.
- It then answers in one of two ways:
  - Endpoints without a script get a JSON body directly: a token for an authenticator, an acknowledgement otherwise.
  - Endpoints with a script get it spawned with two pipes. The request's JSON arguments go to its standard input, and its output is streamed back to the client.

The model also covers the route table (`cfg::Route`, `cfg::Routes`, `Config::findRoute`) and the `Transaction` record.

## How the model is built

- **Asynchronous I/O as outcomes.** Every socket write, file read and pipe read is an outcome taken from a finite sequence the caller supplies: an error, and a byte count or the bytes. The handlers are methods that consume these sequences. A handler that runs out of outcomes stops with a `Pending` report: the coroutine is still suspended.
- **Process-side system calls.** `pipe`, `posix_spawn` with its file actions, the argument `write`, `close` and `waitpid` appear in two forms:
  - their results are a `SpawnEnv` record;
  - their effect on the parent is a `ProcState`: the set of pipe ends it holds open, the child it spawned, how often it waited, and how many `close` calls hit a descriptor it never obtained.
- **Helpers whose bodies are not part of this model** are function-valued fields of a collaborator record, so every property holds for all of them:
  - `http::extract_endpoint`, `http::determine_content_type`, `http::trim_to_lower`, `http::clean_buffer`, `http::extract_header_line`;
  - `http::build_json` and `json::dump`, `authenticate`, and JWT signing.
- **Retry constants.** `TransferState::MAX_RETRIES` and `RETRY_DELAY` are the parameters of `TransferLimits`.
- **Integer width.** `Transaction::bytes` is an `unsigned long` whose additions wrap modulo 2^64.
- **As written versus corrected.** Both handlers model the code as written. Where the code departs from its evident intent, a corrected definition stands next to the as-written one; see "Findings".

## Model

| member | source | states |
|---|---|---|
| `Http.Decimal` | src/GetHandler.cpp:12 | The rendering `std::to_string` gives a length: nonempty, digits only, a leading zero only for 0, a single digit exactly below 10 |
| `Http.ParseDecimalInvertsDecimal` | src/GetHandler.cpp:12 | A Content-Length written in decimal reads back as the same length |
| `Http.DecimalInjective` | src/GetHandler.cpp:12 | Different lengths never give the same Content-Length text |
| `Http.DeclaredLengthOfDecimal` | src/PostHandler.cpp:147 | A Content-Length field written from a length announces exactly that length |
| `Cfg.DefaultRoute` | include/config.h:21-29 | A default route has empty method, endpoint and script, is neither protected nor an authenticator, and has role "viewer" |
| `Cfg.Unloaded` | include/config.h:57-58 | A configuration starts with the secret "top-secret" and no routes |
| `Cfg.FindRoute` | include/config.h:31-39 | Taken as the lookup in the `Routes` map that the declaration suggests. It finds a route exactly when the endpoint is a key, and then it is the route stored under it; at most one route per endpoint |
| `Cfg.UnloadedHasNoRoutes` | include/config.h:57 | No endpoint is found in a configuration that has not been loaded |
| `Transactions.NewTransaction` | include/Transaction.h:17-20 | A new transaction keeps its session, socket and buffer, and its byte counter starts at 0 |
| `Transactions.NewTransactionWithoutBuffer` | include/Transaction.h:17-23 | The two-argument constructor leaves the buffer empty and the counter at 0 |
| `Transactions.AddBytes` | include/Transaction.h:25 | `addBytes` changes only the counter. The counter moves by the argument modulo 2^64, and by exactly the argument when nothing wraps |
| `Transactions.AddBytesThenSubtract` | include/Transaction.h:25 | Adding a count and then its negation restores the transaction, wrap-around included |
| `Transactions.FreshCounterCountsAdditions` | include/Transaction.h:17-25 | On a new transaction, one non-negative addition leaves the counter equal to it |
| `Transactions.SetBuffer` | include/Transaction.h:26 | `setBuffer` replaces the buffer; session, socket and counter are unchanged |
| `Transactions.SetBufferLastWins` | include/Transaction.h:26 | Only the last buffer set survives, and re-setting the current buffer changes nothing |
| `Transactions.AccessorsSeeConstruction` | include/Transaction.h:19-30 | The getters return what was constructed; no buffer or byte update changes the socket |
| `GetHandler.BuildHeader` | src/GetHandler.cpp:4-15 | No head for a length of 0 or below; otherwise exactly the 200 status line, Content-Type, the decimal Content-Length and `Connection: close`, then a blank line |
| `GetHandler.BuildHeaderAnnouncesLength` | src/GetHandler.cpp:11-13 | A non-empty file's head is a well-formed head whose Content-Length is the file length, with the given content type and `Connection: close` |
| `GetHandler.ResolvePath` | src/GetHandler.cpp:82-89 | The path ends with the resource, and is the resource itself exactly when a protected route exists for it; otherwise it is `public/` + resource |
| `GetHandler.ResolveTarget` | src/GetHandler.cpp:75-89 | A failed endpoint extraction reports its code; otherwise a failed content-type inference reports its code; otherwise the path is chosen from the route table |
| `GetHandler.BodyWriteStep` | src/GetHandler.cpp:38-55 | One body write: abort exactly on reset/broken pipe/eof. Retry exactly on another error within budget, waiting `RETRY_DELAY` × the new counter and counting nothing. Otherwise count the bytes reported, capped at what was asked, and reset the counter to 0 |
| `GetHandler.FailuresPastBudgetAreCountedAsWritten` | src/GetHandler.cpp:45-55 | As written, failures that outlast the retry budget end in a zero-byte "advance" with the counter back at 0, not in an error |
| `GetHandler.FailuresNeverEndChunk` | src/GetHandler.cpp:45-55 | As written, no run of non-abort failures ever aborts or moves the written count |
| `GetHandler.PersistentFailureIsRetriedForever` | src/GetHandler.cpp:45-55 | With five retries, a fresh chunk's six failed writes advance by zero bytes, and the next failure starts retrying again |
| `GetHandler.BodyWriteStepCorrected` | src/GetHandler.cpp:45-55 | The corrected step escalates exactly on a non-abort error once the budget is spent, and advances exactly on success |
| `GetHandler.CorrectedEscalatesAfterBudget` | src/GetHandler.cpp:45-55 | With the correction, failures that outlast the budget end in Internal_Server_Error after exactly the allowed retries |
| `GetHandler.SendResource` | src/GetHandler.cpp:17-64 | Detailed below the table |
| `GetHandler.WriteChunk` | src/GetHandler.cpp:35-56 | One chunk's write loop consumes exactly the writes up to the first point where the chunk is complete, a client abort is seen, or the outcomes run out. The written count is the fold of the per-write step over those writes. It is done exactly when that fold reaches the chunk length, and aborted exactly when its last write was a client abort. The delays are exactly one per retry among those writes, in order, each `RETRY_DELAY` × the raised retry counter, so within the backoff budget. The client receives exactly the written prefix of the chunk |
| `GetHandler.ReadsDeliverEach` | src/GetHandler.cpp:27-33 | Every read before the one that ended the transfer succeeded, was made while `bytes_sent` was below `file_len`, and delivered a non-empty chunk |
| `GetHandler.SendOutcomeIsTheRun` | src/GetHandler.cpp:27-59 | The loop written as a recursion, `TransferFrom`, is a reference run. It stops once `bytes_sent` reaches `file_len`, on a failed or empty read, or on a chunk left unfinished, and otherwise goes on to the next read. Any result meeting `SendResource`'s contract reports exactly that run over the same outcomes: its exit, reads and writes consumed, `bytes_sent`, short read and delays |
| `GetHandler.ChunkStopIsFirst` | src/GetHandler.cpp:37-43 | No write before the stopping point completes the chunk, is a client abort, or exhausts the outcomes |
| `GetHandler.GoodOutcomesFinish` | src/GetHandler.cpp:27-63 | When every read delivers and every write succeeds with at least a buffer's worth, and there are enough of both, the transfer finishes without a short read, `bytes_sent` is the file length, and the client holds exactly the file's first `file_len` bytes |
| `GetHandler.GoodReadsSend` | src/GetHandler.cpp:27-58 | When every read delivers a full buffer from a file holding the declared length, `bytes_sent` after k reads is k buffers, capped at the file length (0 for a negative length) |
| `GetHandler.GoodWritesFinishChunks` | src/GetHandler.cpp:35-56 | When every write succeeds and reports a full buffer, and there is a write for each read, no chunk is left unfinished |
| `GetHandler.BodyReport` | src/GetHandler.cpp:39-63 | The transfer's report: completion with `bytes_sent` exactly when it finished, Client_Closed_Request exactly when the client aborted |
| `GetHandler.WriteHeader` | src/GetHandler.cpp:107-120 | Detailed below the table |
| `GetHandler.Handle` | src/GetHandler.cpp:66-122 | Detailed below the table |
| `Subprocess.RunProcess` | src/PostHandler.cpp:8-33 | Succeeds exactly when every file action and the spawn succeed. On success the child runs the script with the script as its only argument, and the parent has closed the child's pipe ends. On failure nothing changes |
| `Subprocess.RunScript` | src/PostHandler.cpp:35-83 | Detailed below the table |
| `Subprocess.ArgsWriteFailureLeavesChildUnwaited` | src/PostHandler.cpp:73-79 | As written, a failed argument write returns an error with a spawned child that nobody waits for |
| `Subprocess.PipeFailureClosesUnopenedDescriptors` | src/PostHandler.cpp:52-60 | As written, a failed first `pipe()` leads to four `close` calls on descriptors that were never created |
| `Subprocess.RunScriptCorrected` | src/PostHandler.cpp:52-82 | The corrected launch closes only what it created and reaps a child whose arguments could not be written; it still yields the reader exactly when every step succeeds |
| `Subprocess.CorrectedAgreesWhenNothingLeaks` | src/PostHandler.cpp:52-82 | The correction agrees with the code as written whenever both pipes exist and no spawned child is abandoned |
| `PostHandler.ParseRequest` | src/PostHandler.cpp:153-174 | Detailed below the table |
| `PostHandler.WrongMethodNeverAuthenticates` | src/PostHandler.cpp:169-173 | A route whose method is not "post" yields Method_Not_Allowed, whatever `authenticate` would say |
| `PostHandler.UnknownEndpointIgnoresRouteChecks` | src/PostHandler.cpp:165-173 | An endpoint without a route is Not_Found, whatever the method check and `authenticate` would say |
| `PostHandler.EmptyScriptBody` | src/PostHandler.cpp:131-145 | An authenticator's body holds only "token", the signed token; any other body holds only "message" = "Endpoint active, no script set" |
| `PostHandler.HandleEmptyScript` | src/PostHandler.cpp:128-151 | The response is exactly the 200 status line, `Connection: close`, the JSON content type, Content-Length = dumped body length + 2, a blank line, then the body and CRLF |
| `PostHandler.EmptyScriptFraming` | src/PostHandler.cpp:147 | The empty-script response is a head followed by a payload, and the head's Content-Length is exactly the payload's length |
| `PostHandler.FirstReadBuffer` | src/PostHandler.cpp:87-93 | The buffer `extract_header_line` sees is the first chunk over the resized request buffer, the rest unchanged |
| `PostHandler.SendResponse` | src/PostHandler.cpp:85-126 | Detailed below the table |
| `PostHandler.ForwardChunk` | src/PostHandler.cpp:107-120 | One chunk's write loop consumes exactly the writes up to the first point where the chunk is complete, a write fails, or the outcomes run out. The written count is the sum of the bytes moved by the successful writes among them. It forwards the chunk exactly when that sum reaches the chunk length. It stops with Client_Closed_Request exactly on reset/broken pipe/eof and with Internal_Server_Error exactly on any other error. Every earlier write succeeded, and an empty chunk makes no write |
| `PostHandler.ForwardStopIsFirst` | src/PostHandler.cpp:107-120 | No write before the stopping point completes the chunk, fails, or exhausts the outcomes |
| `PostHandler.GoodStreamCompletes` | src/PostHandler.cpp:94-126 | When no pipe read fails, only the last one ends the stream, and every write succeeds with at least a buffer's worth, the stream is forwarded to its end and `total_bytes` grows by the sum of all chunks |
| `PostHandler.GoodWritesForward` | src/PostHandler.cpp:107-121 | When every write succeeds and reports a full buffer, the first k chunks are forwarded in full with at most k writes |
| `PostHandler.RunAndStream` | src/PostHandler.cpp:194-211 | Detailed below the table |
| `PostHandler.Handle` | src/PostHandler.cpp:176-212 | Detailed below the table |

The longer contracts:

- **`GetHandler.SendResource`**
  - Each read asks for at most what is left, so no more than the file length, and no more than the file holds, is counted as sent.
  - `bytes_sent` is the sum of what the reads delivered. The reads counted are all those consumed, or all but the last when its chunk was still being written.
  - The writes consumed are accounted for chunk by chunk: each chunk takes the writes its own write loop would take from where the previous chunk stopped.
  - On completion and on a read error, every chunk read was written in full with exactly the writes consumed.
  - On a client abort, the last chunk was cut short at exactly the writes consumed.
  - A pending transfer either ran out of reads with every chunk written in full, or ran out of writes in the middle of its last chunk.
  - A read is made only while `bytes_sent` is below the file length (src/GetHandler.cpp:27). A finished transfer without a short read sent exactly the file length.
  - Every read but the last consumed succeeded and delivered a non-empty chunk.
  - A short read happens exactly when the last read consumed succeeded with nothing delivered. It ends the transfer without error (src/GetHandler.cpp:30-33).
  - The descriptor is closed exactly on completion or client abort, and an abort is the last write made.
  - Only the last read consumed can have failed, and only when the transfer ended on a read error.
  - Only the last write consumed can have been a client abort, and only when the transfer ended on one.
  - The delays waited are those of each chunk's write loop, chunk after chunk, up to the writes consumed. Every one lies between `RETRY_DELAY` and `RETRY_DELAY` × (`MAX_RETRIES` + 1).
  - The client receives a prefix of the file, and on completion exactly the bytes counted as sent.
  - These facts leave no freedom: `GetHandler.SendOutcomeIsTheRun` shows that they determine the whole run.
- **`GetHandler.WriteHeader`**
  - At most `MAX_RETRIES` attempts are made.
  - The k-th failure is followed by a wait of `RETRY_DELAY` × k.
  - The first successful write ends the loop; a short byte count still counts as success.
  - The head goes out exactly when one of the first min(`MAX_RETRIES`, available) writes succeeds.
  - Without a success, every attempt failed and exactly min(`MAX_RETRIES`, available) attempts were made.
- **`GetHandler.Handle`**
  - A rejected request or an unopenable path is reported and opens nothing.
  - A negative length is Not_Found and closes the descriptor.
  - Header writes follow the retry schedule.
  - For a file of known length, the body is sent exactly when one of the header writes the budget allows succeeds.
  - Otherwise every attempt failed. The report is Internal_Server_Error once `MAX_RETRIES` attempts were made, and Pending when the outcomes ran out first. The descriptor stays open.
  - Once the head is out, everything `SendResource` promises holds of the body, with the writes left after the head. This includes the stopping rules and the delays, so the body is the reference run over those outcomes.
  - A completed transfer agrees with its head: an empty file gives `("", 0)`, and a file read to its end sent exactly its Content-Length in bytes.
- **`Subprocess.RunScript`**
  - After any failure, no pipe end is open in the parent.
  - On success only `stdout_pipe[0]` is open.
  - A child exists exactly when the pipes, the file actions and the spawn all succeeded.
  - A short argument write counts as success.
  - Stray closes happen exactly when a pipe could not be created.
  - `runScript` never waits for the child.
- **`PostHandler.ParseRequest`**
  - The checks run in a fixed order, each stage rejecting exactly when the earlier ones passed and it fails: session lock (Internal_Server_Error), endpoint extraction (its code), route lookup (Not_Found), method (Method_Not_Allowed), then `authenticate` (its error).
  - A request is accepted exactly when all of them pass.
- **`PostHandler.SendResponse`**
  - The header line comes from the buffer after the first read.
  - On success `total_bytes` grows by exactly the sum of the chunk sizes read.
  - It stops at the first empty or end-of-stream read.
  - Every read before the last one consumed neither failed nor ended the stream.
  - Every write but the last succeeded, so there are no retries.
  - The outcome is Client_Closed_Request exactly when the last write hit reset/broken pipe/eof.
  - It is Internal_Server_Error exactly when the last read failed or the last write failed with another error.
  - A failed transfer counts every chunk but the one it failed on.
  - The writes consumed are accounted for chunk by chunk, as for GET. A finished transfer wrote every chunk in full with exactly the writes consumed.
  - A failed transfer wrote every earlier chunk in full. It failed on a read, or its last chunk was cut short at exactly the writes consumed.
  - A pending transfer ran out of outcomes before any read or write failed. Either it ran out of reads with every chunk forwarded in full, or it ran out of writes in the middle of its last chunk.
- **`PostHandler.RunAndStream`**
  - A launch failure is reported with the launch's descriptor state.
  - Streaming starts from the request buffer with `total_bytes` at 0, and everything `SendResponse` promises holds of it.
  - Once streaming has ended, the child has been waited on exactly once before the report.
  - At that point only `stdout_pipe[0]` is open.
- **`PostHandler.Handle`**
  - A rejected request is reported and launches nothing.
  - An empty script is answered directly and never spawns a process.
  - Otherwise the script is launched and streamed, with everything `SendResponse` promises.
  - At most one wait happens on every path.

## Left out

- Coroutines, timers, sockets, files and pipes: these are modelled only through the outcome sequences above. A timer wait is only its delay value.
- Error messages (`std::format` text) and logging: `http::error` is reduced to its code.
- JWT signing, `cfg::getRoleHash` and the JSON library: cryptography and a foreign library. They are opaque functions here.
- The bodies of `extract_endpoint`, `determine_content_type`, `trim_to_lower`, `clean_buffer`, `extract_header_line`, `build_json` and `authenticate`: they are not part of this model, so every property holds for any behaviour of theirs.
- `Config::getInstance`, `initialize` and the XML route loading: a singleton with a once-flag, and XML I/O. A loaded configuration is any `Config` value.
- `Cfg.FindRoute`: the body of `Config::findRoute` is not part of this model; only its declaration (include/config.h:39) is. It is modelled as the lookup in `routes` that the `Routes` map suggests.
- `Cfg.Unloaded`: the body of the private `Config()` constructor is not part of this model either. `Cfg.Unloaded` holds only the in-class initialisers: the secret "top-secret" and an empty route map.
- `Transaction`'s `response` and `log_entry` members: they belong to the HTTP response and logger headers, which are not part of this model.
- `include/Server.h`, `Server/Server.h` and `Server/http.h`: declarations only, with no logic.
- The empty `is_authenticator` block inside `sendResponse` does nothing and has no counterpart.
- The `stream_descriptor` that `sendResource` wraps around the file descriptor also closes it on destruction. The explicit `close(filefd)` is the only close modelled.
- Assumed defaults. `TransferState` and `RequestHandler.h` are not part of this model. Both retry loops assume `bytes_sent` and `retry_count` start at 0, and `PostHandler::total_bytes` starts at 0.
- Over-reported counts. A socket write or file read reporting more bytes than requested is capped at the request; an operating system never transfers more.
- `GetHandler.Handle`: when the header retries run out, it reports Internal_Server_Error without closing the file descriptor, as written. The final message reports a default-constructed error, because the loop's `auto [error, ...]` shadows the outer `error`. The message text is not modelled.
- `PostHandler.RunAndStream`: `waitpid` is modelled as always returning. On the error paths (src/PostHandler.cpp:204-206) the read end of the child's output is still open and nobody reads it. A child with more than a pipe buffer of output left would block on its write, and `waitpid` would then block forever. This hang is not modelled.
- `PostHandler.SendResponse`: `extract_header_line` may rewrite the buffer it is given. The model therefore states the bytes forwarded only as counts, not as contents.
- End of file in `sendResource`. asio's `async_read_some` reports end of file by raising `eof`. The model takes any read that fails as `ReadFailed` and treats a zero-byte `ReadOk` as the early end at src/GetHandler.cpp:30-33. With asio that branch is reached only when the read asks for 0 bytes, which happens only when the buffer is empty.
- `PostHandler.HandleEmptyScript`: the result of `sock->write` is ignored by the source and is not modelled.

## Findings

| source | as written | input that shows it | evidently intended | confidence | as-written member | corrected member |
|---|---|---|---|---|---|---|
| src/GetHandler.cpp:45-55 | An errored body write after the retry budget is spent falls through: its byte count is added, `retry_count` drops to 0, and retrying starts over | `MAX_RETRIES` = 5; every write to the socket fails with a non-abort error. The chunk's written count never moves, and the loop never ends or reports an error | Once the budget is spent, report Internal_Server_Error and stop | not executed | `GetHandler.FailuresPastBudgetAreCountedAsWritten` | `GetHandler.CorrectedEscalatesAfterBudget` |
| src/PostHandler.cpp:73-79 | When writing the JSON arguments to the spawned child fails, `runScript` closes the pipes and returns an error; `handle` reports it without `waitpid` | Both pipes and the spawn succeed, and `write` returns -1. The child is never reaped | Wait for (reap) the child before reporting the error | not executed | `Subprocess.ArgsWriteFailureLeavesChildUnwaited` | `Subprocess.RunScriptCorrected` |
| src/PostHandler.cpp:52-60 | When either `pipe()` fails, all four descriptor variables are closed, including ones never assigned | The first `pipe()` fails: four `close` calls on uninitialised descriptors | Close only the descriptors that were created | not executed | `Subprocess.PipeFailureClosesUnopenedDescriptors` | `Subprocess.RunScriptCorrected` |

=== FILE: config.dfy ===
/** The route table and server settings (namespace `cfg`): read-only after it
    has been loaded, looked up by endpoint. */
module Cfg {

  import opened Wrappers

  const Viewer: string := "viewer"
  const User: string := "user"
  const Admin: string := "admin"
  const NoHostName: string := ""

  /** The secret a configuration holds until one is loaded. */
  const DefaultSecret: string := "top-secret"

  type Endpoint = string

  /** One configured endpoint: its method, the script that serves it (empty for
      none), whether it is protected, the role it grants and whether it mints
      tokens. */
  datatype Route = Route(
    httpMethod: string,
    endpoint: Endpoint,
    script: string,
    isProtected: bool,
    role: string,
    isAuthenticator: bool)

  /** `Route()`: every member takes its in-class initialiser. */
  function DefaultRoute(): (r: Route)
    ensures r.httpMethod == "" && r.endpoint == "" && r.script == ""
    ensures !r.isProtected && !r.isAuthenticator
    ensures r.role == Viewer
  {
    Route("", "", "", false, Viewer, false)
  }

  /** A map keyed by endpoint: one route per endpoint at most. */
  type Routes = map<Endpoint, Route>

  datatype Config = Config(routes: Routes, secret: string, contentPath: string, hostName: string)

  /** A configuration before `initialize` has loaded anything: the in-class
      initialisers only. */
  function Unloaded(): (c: Config)
    ensures c.secret == DefaultSecret
    ensures c.routes == map[]
  {
    Config(map[], DefaultSecret, "", NoHostName)
  }

  /** `Config::findRoute`, of which only the declaration is known: taken as the
      lookup in `routes`, giving the route stored under `e` or none (a null
      pointer). */
  function FindRoute(c: Config, e: Endpoint): (r: Option<Route>)
    ensures r.Some? <==> e in c.routes
    ensures r.Some? ==> r.value == c.routes[e]
  {
    if e in c.routes then Some(c.routes[e]) else None
  }

  /** An unloaded configuration knows no endpoint. */
  lemma UnloadedHasNoRoutes(e: Endpoint)
    ensures FindRoute(Unloaded(), e) == None
  {
  }
}

=== FILE: get_handler.dfy ===
/** `GetHandler`: serves a static file. It builds a fixed response head, writes
    it with bounded retries, then copies the file to the socket chunk by chunk. */
module GetHandler {

  import opened Wrappers
  import opened Io
  import opened Http
  import opened Cfg

  const PublicRoot: string := "public/"

  /* ---------------- buildHeader */

  function HeaderFields(contentType: string, fileLen: nat): seq<Field>
  {
    [Field("Content-Type", contentType), Field("Content-Length", Decimal(fileLen)), Field("Connection", "close")]
  }

  /** `buildHeader`: no head at all for an empty (or unmeasurable) file, else
      the 200 status line, the content type, the length in decimal and
      `Connection: close`, ended by a blank line. */
  function BuildHeader(contentType: string, fileLen: int): (h: string)
    ensures fileLen <= 0 ==> h == ""
    ensures 0 < fileLen ==>
              h == "HTTP/1.1 200 OK\r\nContent-Type: " + contentType + "\r\nContent-Length: "
                   + Decimal(fileLen) + "\r\nConnection: close\r\n\r\n"
  {
    if fileLen <= 0 then ""
    else
      HeaderText(contentType, Decimal(fileLen));
      HeadText(StatusOk, HeaderFields(contentType, fileLen))
  }

  /** The structured head of a file spelt out as the literal text. */
  lemma HeaderText(contentType: string, length: string)
    ensures HeadText(StatusOk, [Field("Content-Type", contentType), Field("Content-Length", length), Field("Connection", "close")])
            == "HTTP/1.1 200 OK\r\nContent-Type: " + contentType + "\r\nContent-Length: "
               + length + "\r\nConnection: close\r\n\r\n"
  {
    var a, b, c := Field("Content-Type", contentType), Field("Content-Length", length), Field("Connection", "close");
    FieldLinesOfThree(a, b, c);
    FileHeadLiterals();
    RegroupFileHead(StatusOk, CRLF, "Content-Type", ": ", contentType, "Content-Length", length, FieldLine(c));
  }

  /** The fixed pieces of a file head, spelt out. */
  lemma FileHeadLiterals()
    ensures StatusOk + CRLF + "Content-Type" + ": " == "HTTP/1.1 200 OK\r\nContent-Type: "
    ensures CRLF + "Content-Length" + ": " == "\r\nContent-Length: "
    ensures CRLF + FieldLine(Field("Connection", "close")) + CRLF == "\r\nConnection: close\r\n\r\n"
  {
    StatusLineLiteral();
    ConnectionLineLiteral();
  }

  lemma StatusLineLiteral()
    ensures StatusOk + CRLF + "Content-Type" + ": " == "HTTP/1.1 200 OK\r\nContent-Type: "
  {
  }

  lemma ConnectionLineLiteral()
    ensures CRLF + FieldLine(Field("Connection", "close")) + CRLF == "\r\nConnection: close\r\n\r\n"
  {
  }

  /** The file head regrouped around its two variable field values. */
  lemma RegroupFileHead(st: string, nl: string, n1: string, sep: string, v1: string, n2: string, v2: string, last: string)
    ensures st + nl + ((n1 + sep + v1 + nl) + (n2 + sep + v2 + nl) + last) + nl
            == (st + nl + n1 + sep) + v1 + (nl + n2 + sep) + v2 + (nl + last + nl)
  {
  }

  /** The head of a non-empty file is the structured head of its three fields,
      and it announces exactly the file's length. */
  lemma BuildHeaderAnnouncesLength(contentType: string, fileLen: int)
    requires 0 < fileLen
    ensures BuildHeader(contentType, fileLen) == HeadText(StatusOk, HeaderFields(contentType, fileLen))
    ensures DeclaredLength(HeaderFields(contentType, fileLen)) == Some(fileLen)
    ensures FieldValue(HeaderFields(contentType, fileLen), "Connection") == Some("close")
    ensures FieldValue(HeaderFields(contentType, fileLen), "Content-Type") == Some(contentType)
  {
    var fields := HeaderFields(contentType, fileLen);
    assert fields[1..][1..] == [fields[2]];
    assert "Content-Type"[8] != "Connection"[8];
    assert "Content-Length"[3] != "Connection"[3];
    assert FieldValue(fields, "Connection") == FieldValue(fields[1..], "Connection")
           == FieldValue(fields[1..][1..], "Connection") == Some("close");
    DeclaredLengthOfDecimal(fields, fileLen);
  }

  /* ---------------- handle: from request buffer to file path */

  /** The parsing helpers whose bodies are not part of this model. */
  datatype GetCollaborators = GetCollaborators(
    cleanBuffer: seq<byte> -> seq<byte>,
    extractEndpoint: seq<byte> -> (Code, string),
    determineContentType: string -> (Code, string))

  /** A resource is served from under `public/` unless a protected route exists for it. */
  function ResolvePath(resource: string, route: Option<Route>): (path: string)
    ensures |resource| <= |path| && path[|path| - |resource|..] == resource
    ensures path == resource <==> route.Some? && route.value.isProtected
    ensures path != resource ==> path == PublicRoot + resource
  {
    if route.Some? && route.value.isProtected then resource else PublicRoot + resource
  }

  datatype Target = Rejected(code: Code) | Target(path: string, contentType: string)

  /** Endpoint extraction, then content-type inference (stopping at the first
      that fails, with its code), then the route lookup that chooses the path. */
  function ResolveTarget(buffer: seq<byte>, cfg: Config, co: GetCollaborators): (t: Target)
    ensures var (c1, resource) := co.extractEndpoint(buffer);
            var (c2, ct) := co.determineContentType(resource);
            && (t.Rejected? <==> c1 != OK || c2 != OK)
            && (c1 != OK ==> t.code == c1)
            && (c1 == OK && c2 != OK ==> t.code == c2)
            && (t.Target? ==> t.contentType == ct && t.path == ResolvePath(resource, FindRoute(cfg, resource)))
  {
    var (c1, resource) := co.extractEndpoint(buffer);
    if c1 != OK then Rejected(c1)
    else
      var (c2, ct) := co.determineContentType(resource);
      if c2 != OK then Rejected(c2)
      else Target(ResolvePath(resource, FindRoute(cfg, resource)), ct)
  }

  /* ---------------- sendResource: one write of a chunk */

  /** How much of the current chunk has been written, and the retry counter. */
  datatype ChunkState = ChunkState(written: nat, retry: nat)

  datatype WriteStep = Abort | Retry(next: ChunkState, delay: nat) | Advance(next: ChunkState)

  /** One pass of the inner write loop, as written: a client abort stops; an
      error while `retry <= MAX_RETRIES` waits `RETRY_DELAY * (retry + 1)` and
      tries again without counting anything; every other write (successful, or
      errored with the budget spent) counts the bytes it reports and resets the
      counter to 0. */
  function BodyWriteStep(s: ChunkState, w: WriteOutcome, remaining: nat, lim: TransferLimits): (step: WriteStep)
    ensures step.Abort? <==> IsClientAbort(w.err)
    ensures step.Retry? <==> !IsClientAbort(w.err) && w.err != NoError && s.retry <= lim.maxRetries
    ensures step.Retry? ==> step.next == ChunkState(s.written, s.retry + 1)
                            && step.delay == lim.retryDelay * (s.retry + 1)
    ensures step.Advance? ==> step.next == ChunkState(s.written + Moved(w, remaining), 0)
  {
    if IsClientAbort(w.err) then Abort
    else if w.err != NoError && s.retry <= lim.maxRetries then
      Retry(ChunkState(s.written, s.retry + 1), lim.retryDelay * (s.retry + 1))
    else Advance(ChunkState(s.written + Moved(w, remaining), 0))
  }

  /** A write that failed without moving bytes leaves the chunk where it was. */
  function FailedWrite(e: IoError): WriteOutcome
  {
    WriteOutcome(e, 0)
  }

  /** The step reached after `k` consecutive failed writes, stopping early at
      the first step that is not a retry. */
  function AfterFailures(s: ChunkState, k: nat, e: IoError, lim: TransferLimits): WriteStep
    requires 1 <= k
    decreases k
  {
    var step := BodyWriteStep(s, FailedWrite(e), 0, lim);
    if k == 1 || !step.Retry? then step else AfterFailures(step.next, k - 1, e, lim)
  }

  /** As written, a run of failed writes that outlasts the retry budget is
      counted as a (zero-byte) write and the counter drops to 0: no error is
      raised and the loop goes on retrying. */
  lemma {:induction false} FailuresPastBudgetAreCountedAsWritten(s: ChunkState, e: IoError, lim: TransferLimits)
    requires e != NoError && !IsClientAbort(e)
    requires s.retry <= lim.maxRetries + 1
    ensures AfterFailures(s, lim.maxRetries + 2 - s.retry, e, lim) == Advance(ChunkState(s.written, 0))
    decreases lim.maxRetries + 1 - s.retry
  {
    if s.retry <= lim.maxRetries {
      FailuresPastBudgetAreCountedAsWritten(ChunkState(s.written, s.retry + 1), e, lim);
    }
  }

  /** As written, failed writes never end a chunk: the written count never moves
      and the loop never leaves through an error. */
  lemma {:induction false} FailuresNeverEndChunk(s: ChunkState, k: nat, e: IoError, lim: TransferLimits)
    requires 1 <= k && e != NoError && !IsClientAbort(e)
    ensures !AfterFailures(s, k, e, lim).Abort?
    ensures AfterFailures(s, k, e, lim).next.written == s.written
    decreases k
  {
    var step := BodyWriteStep(s, FailedWrite(e), 0, lim);
    if k > 1 && step.Retry? {
      FailuresNeverEndChunk(step.next, k - 1, e, lim);
    }
  }

  /** A concrete run with five retries and a 100 ms delay: six failed writes
      into a fresh chunk end in a zero-byte "advance" instead of an
      Internal_Server_Error, and the seventh failure is retried again. */
  lemma PersistentFailureIsRetriedForever()
    ensures AfterFailures(ChunkState(0, 1), 6, OtherError(11), TransferLimits(5, 100)) == Advance(ChunkState(0, 0))
    ensures BodyWriteStep(ChunkState(0, 0), FailedWrite(OtherError(11)), 0, TransferLimits(5, 100))
            == Retry(ChunkState(0, 1), 100)
  {
    FailuresPastBudgetAreCountedAsWritten(ChunkState(0, 1), OtherError(11), TransferLimits(5, 100));
  }

  datatype CheckedStep = Aborted | Retried(next: ChunkState, delay: nat) | Escalated | Advanced(next: ChunkState)

  /** The write step with the evident intent: an error once the budget is spent
      ends the transfer with Internal_Server_Error instead of being counted. */
  function BodyWriteStepCorrected(s: ChunkState, w: WriteOutcome, remaining: nat, lim: TransferLimits): (step: CheckedStep)
    ensures step.Aborted? <==> IsClientAbort(w.err)
    ensures step.Escalated? <==> !IsClientAbort(w.err) && w.err != NoError && lim.maxRetries < s.retry
    ensures step.Retried? ==> step.next == ChunkState(s.written, s.retry + 1)
                              && step.delay == lim.retryDelay * (s.retry + 1)
    ensures step.Advanced? <==> w.err == NoError
    ensures step.Advanced? ==> step.next == ChunkState(s.written + Moved(w, remaining), 0)
  {
    if IsClientAbort(w.err) then Aborted
    else if w.err != NoError then
      if s.retry <= lim.maxRetries then Retried(ChunkState(s.written, s.retry + 1), lim.retryDelay * (s.retry + 1))
      else Escalated
    else Advanced(ChunkState(s.written + Moved(w, remaining), 0))
  }

  function AfterFailuresCorrected(s: ChunkState, k: nat, e: IoError, lim: TransferLimits): CheckedStep
    requires 1 <= k
    decreases k
  {
    var step := BodyWriteStepCorrected(s, FailedWrite(e), 0, lim);
    if k == 1 || !step.Retried? then step else AfterFailuresCorrected(step.next, k - 1, e, lim)
  }

  /** With the correction, a run of failed writes that outlasts the budget ends
      in Internal_Server_Error, after exactly the retries the budget allows. */
  lemma {:induction false} CorrectedEscalatesAfterBudget(s: ChunkState, e: IoError, lim: TransferLimits)
    requires e != NoError && !IsClientAbort(e)
    requires s.retry <= lim.maxRetries + 1
    ensures AfterFailuresCorrected(s, lim.maxRetries + 2 - s.retry, e, lim) == Escalated
    decreases lim.maxRetries + 1 - s.retry
  {
    if s.retry <= lim.maxRetries {
      CorrectedEscalatesAfterBudget(ChunkState(s.written, s.retry + 1), e, lim);
    }
  }

  /* ---------------- sendResource */

  datatype BodyExit = SessionGone | Finished | ClientAborted | ReadRaised | BodyPending

  /** What `sendResource` did: how it ended, `bytes_sent`, whether a zero-length
      read cut it short, how many read and write outcomes it consumed, the
      backoff delays it waited, the bytes the client received and whether it
      closed the file descriptor. */
  datatype BodyResult = BodyResult(
    exit: BodyExit,
    bytesSent: nat,
    shortRead: bool,
    readsUsed: nat,
    writesUsed: nat,
    delays: seq<nat>,
    wire: seq<byte>,
    fdClosed: bool)

  /** The bytes a file read delivers: no more than requested, no more than the
      file still holds. */
  function Delivered(n: nat, requested: int, available: int): nat
    requires 0 <= requested && 0 <= available
  {
    Min(n, Min(requested, available))
  }

  /** `bytes_sent` after one more read, from `before`: a failed read, or one
      past the declared length, adds nothing; otherwise the read asks for the
      buffer's size or what is left of the declared length, whichever is
      smaller, and its chunk is written out in full. */
  function SentNext(before: nat, rd: ReadOutcome, dataLen: nat, fileLen: int, bufSize: nat): (after: nat)
    requires before <= dataLen
    ensures before <= after <= dataLen && after <= before + bufSize
  {
    if rd.ReadFailed? || fileLen <= before then before
    else before + Delivered(rd.n, Min(bufSize, fileLen - before), dataLen - before)
  }

  /** `bytes_sent` after the first `k` reads. */
  function SentAfter(fileReads: seq<ReadOutcome>, k: nat, dataLen: nat, fileLen: int, bufSize: nat): (sent: nat)
    requires k <= |fileReads|
    ensures sent <= dataLen
    decreases k
  {
    if k == 0 then 0 else SentNext(SentAfter(fileReads, k - 1, dataLen, fileLen, bufSize), fileReads[k - 1], dataLen, fileLen, bufSize)
  }

  /** The size of the chunk the read `fileReads[k]` delivers (0 for a failed or empty read). */
  function ChunkLen(fileReads: seq<ReadOutcome>, k: nat, dataLen: nat, fileLen: int, bufSize: nat): (len: nat)
    requires k < |fileReads|
    ensures len <= bufSize
  {
    SentAfter(fileReads, k + 1, dataLen, fileLen, bufSize) - SentAfter(fileReads, k, dataLen, fileLen, bufSize)
  }

  /** Where in `writes` the inner loop stands once the chunks of the first `k`
      reads have each been written out in full, one after the other, or None
      when one of them is left unfinished. */
  function WritesAfterChunks(fileReads: seq<ReadOutcome>, k: nat, dataLen: nat, fileLen: int, bufSize: nat,
                             lim: TransferLimits, writes: seq<WriteOutcome>): (w: Option<nat>)
    requires k <= |fileReads|
    ensures w.Some? ==> w.value <= |writes|
    decreases k
  {
    if k == 0 then Some(0)
    else
      match WritesAfterChunks(fileReads, k - 1, dataLen, fileLen, bufSize, lim, writes)
      case None => None
      case Some(start) =>
        var len := ChunkLen(fileReads, k - 1, dataLen, fileLen, bufSize);
        var stop := ChunkStop(len, lim, writes, start);
        if ChunkAfter(len, lim, writes, start, stop).written == len then Some(stop) else None
  }

  /** The chunks of the first `k` reads went out in full, and the writes up to
      `used` stopped the inner loop on the chunk of read `k` before it was all
      written. */
  predicate ChunkCutShort(fileReads: seq<ReadOutcome>, k: nat, used: nat, dataLen: nat, fileLen: int, bufSize: nat,
                          lim: TransferLimits, writes: seq<WriteOutcome>)
    requires k < |fileReads|
  {
    var start := WritesAfterChunks(fileReads, k, dataLen, fileLen, bufSize, lim, writes);
    var len := ChunkLen(fileReads, k, dataLen, fileLen, bufSize);
    && start.Some?
    && used == ChunkStop(len, lim, writes, start.value)
    && ChunkAfter(len, lim, writes, start.value, used).written < len
  }

  /** Each of the first `k` reads delivered a non-empty chunk, so each was made
      while part of the declared length was still unsent and none of them
      stopped the loop. */
  predicate ReadsDeliver(fileReads: seq<ReadOutcome>, k: nat, dataLen: nat, fileLen: int, bufSize: nat)
    requires k <= |fileReads|
    decreases k
  {
    k == 0 || (ReadsDeliver(fileReads, k - 1, dataLen, fileLen, bufSize) && 0 < ChunkLen(fileReads, k - 1, dataLen, fileLen, bufSize))
  }

  /** Each read counted by `ReadsDeliver` was a successful read that delivered
      something, made while part of the declared length was unsent. */
  lemma {:induction false} ReadsDeliverEach(fileReads: seq<ReadOutcome>, k: nat, dataLen: nat, fileLen: int, bufSize: nat, j: nat)
    requires j < k <= |fileReads| && ReadsDeliver(fileReads, k, dataLen, fileLen, bufSize)
    ensures 0 < ChunkLen(fileReads, j, dataLen, fileLen, bufSize)
    ensures fileReads[j].ReadOk? && SentAfter(fileReads, j, dataLen, fileLen, bufSize) < fileLen
    decreases k
  {
    if j < k - 1 {
      ReadsDeliverEach(fileReads, k - 1, dataLen, fileLen, bufSize, j);
    }
  }

  /** The backoff delays waited while the chunks of the first `k` reads were
      each written out in full, one after the other. */
  function DelaysOfChunks(fileReads: seq<ReadOutcome>, k: nat, dataLen: nat, fileLen: int, bufSize: nat,
                          lim: TransferLimits, writes: seq<WriteOutcome>): (delays: seq<nat>)
    requires k <= |fileReads| && WritesAfterChunks(fileReads, k, dataLen, fileLen, bufSize, lim, writes).Some?
    decreases k
  {
    if k == 0 then []
    else
      var start := WritesAfterChunks(fileReads, k - 1, dataLen, fileLen, bufSize, lim, writes).value;
      var len := ChunkLen(fileReads, k - 1, dataLen, fileLen, bufSize);
      DelaysOfChunks(fileReads, k - 1, dataLen, fileLen, bufSize, lim, writes)
        + ChunkDelays(len, lim, writes, start, ChunkStop(len, lim, writes, start))
  }

  /** The backoff delays waited up to the write `used` that left the chunk of
      read `k` unfinished. */
  function DelaysCutShort(fileReads: seq<ReadOutcome>, k: nat, used: nat, dataLen: nat, fileLen: int, bufSize: nat,
                          lim: TransferLimits, writes: seq<WriteOutcome>): (delays: seq<nat>)
    requires k < |fileReads| && ChunkCutShort(fileReads, k, used, dataLen, fileLen, bufSize, lim, writes)
  {
    var start := WritesAfterChunks(fileReads, k, dataLen, fileLen, bufSize, lim, writes).value;
    DelaysOfChunks(fileReads, k, dataLen, fileLen, bufSize, lim, writes)
      + ChunkDelays(ChunkLen(fileReads, k, dataLen, fileLen, bufSize), lim, writes, start, used)
  }

  /** Every backoff delay lies between RETRY_DELAY and RETRY_DELAY * (MAX_RETRIES + 1). */
  predicate DelaysWithin(delays: seq<nat>, lim: TransferLimits)
  {
    forall i :: 0 <= i < |delays| ==> lim.retryDelay <= delays[i] <= lim.retryDelay * (lim.maxRetries + 1)
  }

  /** What holds at the top of `sendResource`'s outer loop, with `st` holding
      `bytes_sent`, the outcomes consumed so far, the delays waited and the
      bytes on the wire: every read so far succeeded and every chunk it
      delivered went out in full, no write was a client abort, and the client
      holds exactly the first `bytes_sent` bytes of the file. */
  predicate SendProgress(st: BodyResult, data: seq<byte>, fileLen: int, bufSize: nat, lim: TransferLimits,
                         fileReads: seq<ReadOutcome>, writes: seq<WriteOutcome>)
  {
    && st.readsUsed <= |fileReads| && st.writesUsed <= |writes|
    && st.bytesSent <= |data| && (st.bytesSent == 0 || st.bytesSent <= fileLen)
    && DelaysWithin(st.delays, lim)
    && (FailuresTransferNothing(writes) ==> st.wire == data[..st.bytesSent])
    && (forall j :: 0 <= j < st.readsUsed ==> fileReads[j].ReadOk?)
    && (forall j :: 0 <= j < st.writesUsed ==> !IsClientAbort(writes[j].err))
    && st.bytesSent == SentAfter(fileReads, st.readsUsed, |data|, fileLen, bufSize)
    && WritesAfterChunks(fileReads, st.readsUsed, |data|, fileLen, bufSize, lim, writes) == Some(st.writesUsed)
    && ReadsDeliver(fileReads, st.readsUsed, |data|, fileLen, bufSize)
    && st.delays == DelaysOfChunks(fileReads, st.readsUsed, |data|, fileLen, bufSize, lim, writes)
  }

  /** What `sendResource` promises of its result `r` once it has a live
      session, whatever the outcomes of its reads and writes: how it ended,
      what the outcomes it consumed account for, and why it stopped there. */
  predicate SendOutcome(r: BodyResult, data: seq<byte>, fileLen: int, bufSize: nat, lim: TransferLimits,
                        fileReads: seq<ReadOutcome>, writes: seq<WriteOutcome>)
  {
    && SendShape(r, data, fileLen, bufSize, lim, fileReads, writes)
    && SendAccounts(r, data, fileLen, bufSize, lim, fileReads, writes)
    && SendStops(r, data, fileLen, bufSize, fileReads)
  }

  /** How the transfer ended, and which outcomes it saw on the way. */
  predicate SendShape(r: BodyResult, data: seq<byte>, fileLen: int, bufSize: nat, lim: TransferLimits,
                      fileReads: seq<ReadOutcome>, writes: seq<WriteOutcome>)
  {
    && r.readsUsed <= |fileReads| && r.writesUsed <= |writes|
    && r.exit != SessionGone
    // each read asks for at most what is left, so nothing beyond the declared length is sent
    && r.bytesSent <= |data|
    && (r.bytesSent == 0 || r.bytesSent <= fileLen)
    && (r.exit == Finished && !r.shortRead && 0 <= fileLen ==> r.bytesSent == fileLen)
    && (r.shortRead ==> r.exit == Finished && r.bytesSent < fileLen && 0 < r.readsUsed
                        && fileReads[r.readsUsed - 1].ReadOk?
                        // a transfer that ends early ended on a read that delivered nothing
                        && Delivered(fileReads[r.readsUsed - 1].n, Min(bufSize, fileLen - r.bytesSent), |data| - r.bytesSent) == 0)
    && (r.exit == Finished || r.exit == ClientAborted <==> r.fdClosed)
    && (r.exit == ClientAborted ==> 0 < r.writesUsed && LastWriteAborted(r.writesUsed, writes))
    && (r.exit == ReadRaised ==> 0 < r.readsUsed && fileReads[r.readsUsed - 1].ReadFailed?)
    && (r.exit == BodyPending ==> r.readsUsed == |fileReads| || r.writesUsed == |writes|)
    // the converse directions: only the last read consumed can have failed, only the last write
    // consumed can have been a client abort, and neither happened unless that is how it ended
    && (forall j :: 0 <= j < r.readsUsed - 1 ==> fileReads[j].ReadOk?)
    && (forall j :: 0 <= j < r.writesUsed - 1 ==> !IsClientAbort(writes[j].err))
    && (r.exit != ReadRaised ==> forall j :: 0 <= j < r.readsUsed ==> fileReads[j].ReadOk?)
    && (r.exit != ClientAborted ==> forall j :: 0 <= j < r.writesUsed ==> !IsClientAbort(writes[j].err))
    && DelaysWithin(r.delays, lim)
    // the client receives a prefix of the file, all of what was counted as sent
    && (FailuresTransferNothing(writes) ==> r.bytesSent <= |r.wire| <= |data| && r.wire == data[..|r.wire|])
    && (FailuresTransferNothing(writes) && r.exit == Finished ==> r.wire == data[..r.bytesSent])
  }

  /** What the outcomes consumed account for: `bytes_sent` is what the reads
      delivered, all of them or all but a last one whose chunk was still being
      written; the writes consumed are exactly those that moved each chunk in
      full, except that a client abort or running out of write outcomes cuts
      short the chunk of the last read; and the delays waited are those of each
      retry among those writes, in order. */
  predicate SendAccounts(r: BodyResult, data: seq<byte>, fileLen: int, bufSize: nat, lim: TransferLimits,
                         fileReads: seq<ReadOutcome>, writes: seq<WriteOutcome>)
  {
    && r.readsUsed <= |fileReads| && r.writesUsed <= |writes|
    && (r.exit == Finished || r.exit == ReadRaised ==>
          && r.bytesSent == SentAfter(fileReads, r.readsUsed, |data|, fileLen, bufSize)
          && WritesAfterChunks(fileReads, r.readsUsed, |data|, fileLen, bufSize, lim, writes) == Some(r.writesUsed)
          && r.delays == DelaysOfChunks(fileReads, r.readsUsed, |data|, fileLen, bufSize, lim, writes))
    && (r.exit == ClientAborted ==>
          && 0 < r.readsUsed && r.bytesSent == SentAfter(fileReads, r.readsUsed - 1, |data|, fileLen, bufSize)
          && ChunkCutShort(fileReads, r.readsUsed - 1, r.writesUsed, |data|, fileLen, bufSize, lim, writes)
          && WritesAfterChunks(fileReads, r.readsUsed - 1, |data|, fileLen, bufSize, lim, writes).value < r.writesUsed
          && r.delays == DelaysCutShort(fileReads, r.readsUsed - 1, r.writesUsed, |data|, fileLen, bufSize, lim, writes))
    // a transfer is left pending only between chunks when the reads ran out, or within a chunk
    // when the writes ran out
    && (r.exit == BodyPending ==>
          || (&& r.readsUsed == |fileReads| && r.bytesSent < fileLen
              && r.bytesSent == SentAfter(fileReads, r.readsUsed, |data|, fileLen, bufSize)
              && WritesAfterChunks(fileReads, r.readsUsed, |data|, fileLen, bufSize, lim, writes) == Some(r.writesUsed)
              && r.delays == DelaysOfChunks(fileReads, r.readsUsed, |data|, fileLen, bufSize, lim, writes))
          || (&& 0 < r.readsUsed && r.writesUsed == |writes|
              && r.bytesSent == SentAfter(fileReads, r.readsUsed - 1, |data|, fileLen, bufSize)
              && ChunkCutShort(fileReads, r.readsUsed - 1, r.writesUsed, |data|, fileLen, bufSize, lim, writes)
              && r.delays == DelaysCutShort(fileReads, r.readsUsed - 1, r.writesUsed, |data|, fileLen, bufSize, lim, writes)))
  }

  /** Why the loop stopped reading: a read is made only while part of the
      declared length is unsent (src/GetHandler.cpp:27), only the last read can
      have failed or delivered nothing, a read that delivered nothing is
      exactly a short read (src/GetHandler.cpp:30-33), and a transfer that
      finished otherwise has sent the declared length. */
  predicate SendStops(r: BodyResult, data: seq<byte>, fileLen: int, bufSize: nat, fileReads: seq<ReadOutcome>)
  {
    && r.readsUsed <= |fileReads|
    && (0 < r.readsUsed ==>
          && SentAfter(fileReads, r.readsUsed - 1, |data|, fileLen, bufSize) < fileLen
          && ReadsDeliver(fileReads, r.readsUsed - 1, |data|, fileLen, bufSize))
    && (r.exit != ReadRaised && !r.shortRead ==> ReadsDeliver(fileReads, r.readsUsed, |data|, fileLen, bufSize))
    && (r.shortRead <==> && 0 < r.readsUsed && fileReads[r.readsUsed - 1].ReadOk?
                         && ChunkLen(fileReads, r.readsUsed - 1, |data|, fileLen, bufSize) == 0)
    && (r.exit == Finished && !r.shortRead ==> fileLen <= r.bytesSent)
  }

  /** `sendResource(filefd, file_len)` over the file's bytes `data`, with
      `bufSize` the receive buffer's size. */
  method SendResource(alive: bool, data: seq<byte>, fileLen: int, bufSize: nat, lim: TransferLimits,
                      fileReads: seq<ReadOutcome>, writes: seq<WriteOutcome>)
    returns (r: BodyResult)
    ensures r.readsUsed <= |fileReads| && r.writesUsed <= |writes|
    ensures !alive ==> r.exit == SessionGone && r.readsUsed == 0 && r.writesUsed == 0 && !r.fdClosed
    ensures alive ==> SendOutcome(r, data, fileLen, bufSize, lim, fileReads, writes)
    ensures alive && fileLen <= 0 ==> r.exit == Finished && r.bytesSent == 0 && r.readsUsed == 0 && r.writesUsed == 0
  {
    if !alive {
      return BodyResult(SessionGone, 0, false, 0, 0, [], [], false);
    }
    var st := BodyResult(BodyPending, 0, false, 0, 0, [], [], false);
    while st.bytesSent < fileLen
      invariant SendProgress(st, data, fileLen, bufSize, lim, fileReads, writes)
      invariant fileLen <= 0 ==> st.readsUsed == 0 && st.writesUsed == 0 && st.bytesSent == 0
      decreases |fileReads| - st.readsUsed
    {
      if st.readsUsed == |fileReads| {
        r := st.(exit := BodyPending, shortRead := false, fdClosed := false);
        EndsWellWhenReadsRunOut(r, data, fileLen, bufSize, lim, fileReads, writes);
        return;
      }
      var rd := fileReads[st.readsUsed];
      if rd.ReadFailed? {
        r := st.(exit := ReadRaised, readsUsed := st.readsUsed + 1, shortRead := false, fdClosed := false);
        EndsWellOnReadFailure(st, r, data, fileLen, bufSize, lim, fileReads, writes);
        return;
      }
      var got := Delivered(rd.n, Min(bufSize, fileLen - st.bytesSent), |data| - st.bytesSent);
      if got == 0 {
        // a premature end of file only ends the transfer early
        r := st.(exit := Finished, readsUsed := st.readsUsed + 1, shortRead := true, fdClosed := true);
        EndsWellOnShortRead(st, r, data, fileLen, bufSize, lim, fileReads, writes);
        return;
      }
      var more;
      r, more := SendChunk(data, fileLen, bufSize, lim, fileReads, writes, st, got);
      if !more {
        return;
      }
      st := r;
    }
    r := st.(exit := Finished, shortRead := false, fdClosed := true);
    EndsWellWhenAllSent(r, data, fileLen, bufSize, lim, fileReads, writes);
  }

  /* Each way out of the loop keeps `sendResource`'s promise. */

  lemma EndsWellWhenReadsRunOut(r: BodyResult, data: seq<byte>, fileLen: int, bufSize: nat, lim: TransferLimits,
                                fileReads: seq<ReadOutcome>, writes: seq<WriteOutcome>)
    requires SendProgress(r, data, fileLen, bufSize, lim, fileReads, writes)
    requires r.exit == BodyPending && r.readsUsed == |fileReads| && r.bytesSent < fileLen && !r.shortRead && !r.fdClosed
    ensures SendOutcome(r, data, fileLen, bufSize, lim, fileReads, writes)
  {
  }

  lemma EndsWellOnReadFailure(st: BodyResult, r: BodyResult, data: seq<byte>, fileLen: int, bufSize: nat, lim: TransferLimits,
                              fileReads: seq<ReadOutcome>, writes: seq<WriteOutcome>)
    requires SendProgress(st, data, fileLen, bufSize, lim, fileReads, writes)
    requires st.readsUsed < |fileReads| && fileReads[st.readsUsed].ReadFailed? && st.bytesSent < fileLen
    requires r == st.(exit := ReadRaised, readsUsed := st.readsUsed + 1, shortRead := false, fdClosed := false)
    ensures SendOutcome(r, data, fileLen, bufSize, lim, fileReads, writes)
  {
    EmptyReadTakesNoWrites(fileReads, st.readsUsed, st.bytesSent, |data|, fileLen, bufSize, lim, writes);
  }

  lemma EndsWellOnShortRead(st: BodyResult, r: BodyResult, data: seq<byte>, fileLen: int, bufSize: nat, lim: TransferLimits,
                            fileReads: seq<ReadOutcome>, writes: seq<WriteOutcome>)
    requires SendProgress(st, data, fileLen, bufSize, lim, fileReads, writes)
    requires st.readsUsed < |fileReads| && fileReads[st.readsUsed].ReadOk? && st.bytesSent < fileLen
    requires Delivered(fileReads[st.readsUsed].n, Min(bufSize, fileLen - st.bytesSent), |data| - st.bytesSent) == 0
    requires r == st.(exit := Finished, readsUsed := st.readsUsed + 1, shortRead := true, fdClosed := true)
    ensures SendOutcome(r, data, fileLen, bufSize, lim, fileReads, writes)
  {
    EmptyReadTakesNoWrites(fileReads, st.readsUsed, st.bytesSent, |data|, fileLen, bufSize, lim, writes);
  }

  /** A read that fails or delivers nothing adds nothing to `bytes_sent` and
      puts nothing to write: the writes stay where they were. */
  lemma EmptyReadTakesNoWrites(fileReads: seq<ReadOutcome>, k: nat, sent: nat, dataLen: nat, fileLen: int, bufSize: nat,
                               lim: TransferLimits, writes: seq<WriteOutcome>)
    requires k < |fileReads| && sent == SentAfter(fileReads, k, dataLen, fileLen, bufSize)
    requires || fileReads[k].ReadFailed?
             || (sent < fileLen && Delivered(fileReads[k].n, Min(bufSize, fileLen - sent), dataLen - sent) == 0)
    requires WritesAfterChunks(fileReads, k, dataLen, fileLen, bufSize, lim, writes).Some?
    ensures SentAfter(fileReads, k + 1, dataLen, fileLen, bufSize) == sent
    ensures WritesAfterChunks(fileReads, k + 1, dataLen, fileLen, bufSize, lim, writes)
            == WritesAfterChunks(fileReads, k, dataLen, fileLen, bufSize, lim, writes)
  {
    var start := WritesAfterChunks(fileReads, k, dataLen, fileLen, bufSize, lim, writes).value;
    assert ChunkLen(fileReads, k, dataLen, fileLen, bufSize) == 0;
    assert ChunkStopFrom(0, lim, writes, start, start) == start;
  }

  lemma EndsWellWhenAllSent(r: BodyResult, data: seq<byte>, fileLen: int, bufSize: nat, lim: TransferLimits,
                            fileReads: seq<ReadOutcome>, writes: seq<WriteOutcome>)
    requires SendProgress(r, data, fileLen, bufSize, lim, fileReads, writes)
    requires fileLen <= r.bytesSent && (fileLen <= 0 ==> r.bytesSent == 0)
    requires r.exit == Finished && !r.shortRead && r.fdClosed
    ensures SendOutcome(r, data, fileLen, bufSize, lim, fileReads, writes)
  {
  }

  /** One pass of `sendResource`'s outer loop past a read that delivered
      `got` bytes: writes them out and says whether the loop goes on. */
  method SendChunk(data: seq<byte>, fileLen: int, bufSize: nat, lim: TransferLimits,
                   fileReads: seq<ReadOutcome>, writes: seq<WriteOutcome>, st: BodyResult, got: nat)
    returns (r: BodyResult, more: bool)
    requires SendProgress(st, data, fileLen, bufSize, lim, fileReads, writes)
    requires st.readsUsed < |fileReads| && fileReads[st.readsUsed].ReadOk? && st.bytesSent < fileLen
    requires 0 < got == Delivered(fileReads[st.readsUsed].n, Min(bufSize, fileLen - st.bytesSent), |data| - st.bytesSent)
    ensures more ==> SendProgress(r, data, fileLen, bufSize, lim, fileReads, writes)
                     && r.readsUsed == st.readsUsed + 1 && r.bytesSent == st.bytesSent + got
    ensures !more ==> SendOutcome(r, data, fileLen, bufSize, lim, fileReads, writes)
  {
    var c := WriteChunk(data[st.bytesSent..st.bytesSent + got], lim, writes, st.writesUsed);
    var base := st.(readsUsed := st.readsUsed + 1, writesUsed := c.writesUsed, delays := st.delays + c.delays,
                    wire := st.wire + c.piece);
    match c.exit
    case ChunkAborted =>
      r, more := base.(exit := ClientAborted, shortRead := false, fdClosed := true), false;
      PassEndsOnAbort(st, base, c, r, got, data, fileLen, bufSize, lim, fileReads, writes);
    case ChunkStalled =>
      r, more := base.(exit := BodyPending, shortRead := false, fdClosed := false), false;
      PassEndsWhenWritesRunOut(st, base, c, r, got, data, fileLen, bufSize, lim, fileReads, writes);
    case ChunkDone =>
      r, more := base.(bytesSent := st.bytesSent + got), true;
      PassContinues(st, base, c, r, got, data, fileLen, bufSize, lim, fileReads, writes);
  }

  /* Each way out of the inner loop, read in terms of the outer loop's state. */

  lemma PassEndsOnAbort(st: BodyResult, base: BodyResult, c: ChunkWrite, r: BodyResult, got: nat,
                         data: seq<byte>, fileLen: int, bufSize: nat, lim: TransferLimits,
                         fileReads: seq<ReadOutcome>, writes: seq<WriteOutcome>)
    requires SendProgress(st, data, fileLen, bufSize, lim, fileReads, writes)
    requires st.readsUsed < |fileReads| && fileReads[st.readsUsed].ReadOk? && st.bytesSent < fileLen
    requires 0 < got == Delivered(fileReads[st.readsUsed].n, Min(bufSize, fileLen - st.bytesSent), |data| - st.bytesSent)
    requires ChunkOutcome(data[st.bytesSent..st.bytesSent + got], lim, writes, st.writesUsed, c)
    requires base == st.(readsUsed := st.readsUsed + 1, writesUsed := c.writesUsed, delays := st.delays + c.delays,
                         wire := st.wire + c.piece)
    requires c.exit == ChunkAborted && r == base.(exit := ClientAborted, shortRead := false, fdClosed := true)
    ensures SendOutcome(r, data, fileLen, bufSize, lim, fileReads, writes)
  {
    InnerLoopWroteChunk(st, base, c, got, data, fileLen, bufSize, lim, fileReads, writes);
    EndsWellOnAbort(st, base, r, c.piece, c.delays, got, data, fileLen, bufSize, lim, fileReads, writes);
  }

  lemma PassEndsWhenWritesRunOut(st: BodyResult, base: BodyResult, c: ChunkWrite, r: BodyResult, got: nat,
                                  data: seq<byte>, fileLen: int, bufSize: nat, lim: TransferLimits,
                                  fileReads: seq<ReadOutcome>, writes: seq<WriteOutcome>)
    requires SendProgress(st, data, fileLen, bufSize, lim, fileReads, writes)
    requires st.readsUsed < |fileReads| && fileReads[st.readsUsed].ReadOk? && st.bytesSent < fileLen
    requires 0 < got == Delivered(fileReads[st.readsUsed].n, Min(bufSize, fileLen - st.bytesSent), |data| - st.bytesSent)
    requires ChunkOutcome(data[st.bytesSent..st.bytesSent + got], lim, writes, st.writesUsed, c)
    requires base == st.(readsUsed := st.readsUsed + 1, writesUsed := c.writesUsed, delays := st.delays + c.delays,
                         wire := st.wire + c.piece)
    requires c.exit == ChunkStalled && r == base.(exit := BodyPending, shortRead := false, fdClosed := false)
    ensures SendOutcome(r, data, fileLen, bufSize, lim, fileReads, writes)
  {
    InnerLoopWroteChunk(st, base, c, got, data, fileLen, bufSize, lim, fileReads, writes);
    EndsWellWhenWritesRunOut(st, base, r, c.piece, c.delays, got, data, fileLen, bufSize, lim, fileReads, writes);
  }

  lemma PassContinues(st: BodyResult, base: BodyResult, c: ChunkWrite, r: BodyResult, got: nat,
                         data: seq<byte>, fileLen: int, bufSize: nat, lim: TransferLimits,
                         fileReads: seq<ReadOutcome>, writes: seq<WriteOutcome>)
    requires SendProgress(st, data, fileLen, bufSize, lim, fileReads, writes)
    requires st.readsUsed < |fileReads| && fileReads[st.readsUsed].ReadOk? && st.bytesSent < fileLen
    requires 0 < got == Delivered(fileReads[st.readsUsed].n, Min(bufSize, fileLen - st.bytesSent), |data| - st.bytesSent)
    requires ChunkOutcome(data[st.bytesSent..st.bytesSent + got], lim, writes, st.writesUsed, c)
    requires base == st.(readsUsed := st.readsUsed + 1, writesUsed := c.writesUsed, delays := st.delays + c.delays,
                         wire := st.wire + c.piece)
    requires c.exit == ChunkDone && r == base.(bytesSent := st.bytesSent + got)
    ensures SendProgress(r, data, fileLen, bufSize, lim, fileReads, writes)
  {
    InnerLoopWroteChunk(st, base, c, got, data, fileLen, bufSize, lim, fileReads, writes);
    ProgressAfterChunk(st, base, r, c.piece, c.delays, got, data, fileLen, bufSize, lim, fileReads, writes);
  }

  /** The inner loop's promise, read in terms of the outer loop's state. */
  lemma InnerLoopWroteChunk(st: BodyResult, base: BodyResult, c: ChunkWrite, got: nat,
                            data: seq<byte>, fileLen: int, bufSize: nat, lim: TransferLimits,
                            fileReads: seq<ReadOutcome>, writes: seq<WriteOutcome>)
    requires SendProgress(st, data, fileLen, bufSize, lim, fileReads, writes)
    requires st.readsUsed < |fileReads| && fileReads[st.readsUsed].ReadOk? && st.bytesSent < fileLen
    requires 0 < got == Delivered(fileReads[st.readsUsed].n, Min(bufSize, fileLen - st.bytesSent), |data| - st.bytesSent)
    requires ChunkOutcome(data[st.bytesSent..st.bytesSent + got], lim, writes, st.writesUsed, c)
    requires base == st.(readsUsed := st.readsUsed + 1, writesUsed := c.writesUsed, delays := st.delays + c.delays,
                         wire := st.wire + c.piece)
    ensures ChunkStep(st, base, c.piece, c.delays, got, data, fileLen, bufSize, lim, fileReads, writes)
    ensures c.exit == ChunkDone <==> ChunkAfter(got, lim, writes, st.writesUsed, c.writesUsed).written == got
    ensures c.exit == ChunkAborted <==> st.writesUsed < c.writesUsed && IsClientAbort(writes[c.writesUsed - 1].err)
    ensures c.exit == ChunkStalled ==> c.writesUsed == |writes|
  {
  }

  /** What every exit of one pass past a successful read shares: the read was
      consumed, the writes moved on with no client abort before the last one,
      the chunk's delays stayed within budget, and the wire grew by a prefix
      of the chunk. */
  predicate ChunkStep(st: BodyResult, r: BodyResult, piece: seq<byte>, chunkDelays: seq<nat>, got: nat,
                      data: seq<byte>, fileLen: int, bufSize: nat, lim: TransferLimits,
                      fileReads: seq<ReadOutcome>, writes: seq<WriteOutcome>)
  {
    && SendProgress(st, data, fileLen, bufSize, lim, fileReads, writes)
    && st.readsUsed < |fileReads| && fileReads[st.readsUsed].ReadOk? && st.bytesSent < fileLen
    && 0 < got == Delivered(fileReads[st.readsUsed].n, Min(bufSize, fileLen - st.bytesSent), |data| - st.bytesSent)
    && r.readsUsed == st.readsUsed + 1 && r.bytesSent == st.bytesSent
    && st.writesUsed <= r.writesUsed <= |writes|
    && r.writesUsed == ChunkStop(got, lim, writes, st.writesUsed)
    && (forall j :: st.writesUsed <= j < r.writesUsed - 1 ==> !IsClientAbort(writes[j].err))
    && r.delays == st.delays + chunkDelays && DelaysWithin(chunkDelays, lim)
    && chunkDelays == ChunkDelays(got, lim, writes, st.writesUsed, r.writesUsed)
    && r.wire == st.wire + piece
    && (FailuresTransferNothing(writes) ==>
          piece == data[st.bytesSent..st.bytesSent + got][..ChunkAfter(got, lim, writes, st.writesUsed, r.writesUsed).written])
  }

  /** The accounting of a transfer that stopped within the chunk of its last read. */
  lemma AccountsWhenCutShort(r: BodyResult, data: seq<byte>, fileLen: int, bufSize: nat, lim: TransferLimits,
                             fileReads: seq<ReadOutcome>, writes: seq<WriteOutcome>)
    requires 0 < r.readsUsed <= |fileReads| && r.writesUsed <= |writes|
    requires r.exit == ClientAborted || (r.exit == BodyPending && r.writesUsed == |writes|)
    requires r.bytesSent == SentAfter(fileReads, r.readsUsed - 1, |data|, fileLen, bufSize)
    requires ChunkCutShort(fileReads, r.readsUsed - 1, r.writesUsed, |data|, fileLen, bufSize, lim, writes)
    requires r.exit == ClientAborted ==>
               WritesAfterChunks(fileReads, r.readsUsed - 1, |data|, fileLen, bufSize, lim, writes).value < r.writesUsed
    requires r.delays == DelaysCutShort(fileReads, r.readsUsed - 1, r.writesUsed, |data|, fileLen, bufSize, lim, writes)
    ensures SendAccounts(r, data, fileLen, bufSize, lim, fileReads, writes)
  {
  }

  /** Why a transfer that delivered every chunk it read stopped: its last read
      was made while part of the declared length was unsent. */
  lemma StopsAfterDeliveringRead(r: BodyResult, data: seq<byte>, fileLen: int, bufSize: nat, fileReads: seq<ReadOutcome>)
    requires 0 < r.readsUsed <= |fileReads| && r.exit != Finished && !r.shortRead
    requires SentAfter(fileReads, r.readsUsed - 1, |data|, fileLen, bufSize) < fileLen
    requires ReadsDeliver(fileReads, r.readsUsed, |data|, fileLen, bufSize)
    ensures SendStops(r, data, fileLen, bufSize, fileReads)
  {
    assert 0 < ChunkLen(fileReads, r.readsUsed - 1, |data|, fileLen, bufSize);
  }

  /** Delays within the budget stay within it when more such delays follow. */
  lemma DelaysWithinAppend(a: seq<nat>, b: seq<nat>, lim: TransferLimits)
    requires DelaysWithin(a, lim) && DelaysWithin(b, lim)
    ensures DelaysWithin(a + b, lim)
  {
  }

  /** A successful read after successful reads. */
  lemma ReadsOkExtend(fileReads: seq<ReadOutcome>, k: nat)
    requires k < |fileReads| && fileReads[k].ReadOk?
    requires forall j :: 0 <= j < k ==> fileReads[j].ReadOk?
    ensures forall j :: 0 <= j < k + 1 ==> fileReads[j].ReadOk?
  {
  }

  /** A transfer that stopped within the chunk of its last read, on a client
      abort or because the write outcomes ran out, keeps `sendResource`'s promise. */
  lemma EndsWellCutShort(r: BodyResult, data: seq<byte>, fileLen: int, bufSize: nat, lim: TransferLimits,
                         fileReads: seq<ReadOutcome>, writes: seq<WriteOutcome>)
    requires 0 < r.readsUsed <= |fileReads| && r.writesUsed <= |writes| && !r.shortRead
    requires || (r.exit == ClientAborted && r.fdClosed && 0 < r.writesUsed && LastWriteAborted(r.writesUsed, writes))
             || (&& r.exit == BodyPending && !r.fdClosed && r.writesUsed == |writes|
                 && (0 < r.writesUsed ==> !IsClientAbort(writes[r.writesUsed - 1].err)))
    requires forall j :: 0 <= j < r.readsUsed ==> fileReads[j].ReadOk?
    requires forall j :: 0 <= j < r.writesUsed - 1 ==> !IsClientAbort(writes[j].err)
    requires DelaysWithin(r.delays, lim)
    requires r.bytesSent <= |data| && r.bytesSent < fileLen
    requires FailuresTransferNothing(writes) ==> r.bytesSent <= |r.wire| <= |data| && r.wire == data[..|r.wire|]
    requires r.bytesSent == SentAfter(fileReads, r.readsUsed - 1, |data|, fileLen, bufSize)
    requires ChunkCutShort(fileReads, r.readsUsed - 1, r.writesUsed, |data|, fileLen, bufSize, lim, writes)
    requires r.exit == ClientAborted ==>
               WritesAfterChunks(fileReads, r.readsUsed - 1, |data|, fileLen, bufSize, lim, writes).value < r.writesUsed
    requires r.delays == DelaysCutShort(fileReads, r.readsUsed - 1, r.writesUsed, |data|, fileLen, bufSize, lim, writes)
    requires ReadsDeliver(fileReads, r.readsUsed, |data|, fileLen, bufSize)
    ensures SendOutcome(r, data, fileLen, bufSize, lim, fileReads, writes)
  {
    ShapeWhenCutShort(r, data, fileLen, bufSize, lim, fileReads, writes);
    AccountsWhenCutShort(r, data, fileLen, bufSize, lim, fileReads, writes);
    StopsAfterDeliveringRead(r, data, fileLen, bufSize, fileReads);
  }

  /** How a transfer that stopped within the chunk of its last read ended. */
  lemma ShapeWhenCutShort(r: BodyResult, data: seq<byte>, fileLen: int, bufSize: nat, lim: TransferLimits,
                          fileReads: seq<ReadOutcome>, writes: seq<WriteOutcome>)
    requires 0 < r.readsUsed <= |fileReads| && r.writesUsed <= |writes| && !r.shortRead
    requires || (r.exit == ClientAborted && r.fdClosed && 0 < r.writesUsed && LastWriteAborted(r.writesUsed, writes))
             || (&& r.exit == BodyPending && !r.fdClosed && r.writesUsed == |writes|
                 && (0 < r.writesUsed ==> !IsClientAbort(writes[r.writesUsed - 1].err)))
    requires forall j :: 0 <= j < r.readsUsed ==> fileReads[j].ReadOk?
    requires forall j :: 0 <= j < r.writesUsed - 1 ==> !IsClientAbort(writes[j].err)
    requires DelaysWithin(r.delays, lim)
    requires r.bytesSent <= |data| && r.bytesSent < fileLen
    requires FailuresTransferNothing(writes) ==> r.bytesSent <= |r.wire| <= |data| && r.wire == data[..|r.wire|]
    ensures SendShape(r, data, fileLen, bufSize, lim, fileReads, writes)
  {
  }

  lemma EndsWellOnAbort(st: BodyResult, base: BodyResult, r: BodyResult, piece: seq<byte>, chunkDelays: seq<nat>, got: nat,
                        data: seq<byte>, fileLen: int, bufSize: nat, lim: TransferLimits,
                        fileReads: seq<ReadOutcome>, writes: seq<WriteOutcome>)
    requires ChunkStep(st, base, piece, chunkDelays, got, data, fileLen, bufSize, lim, fileReads, writes)
    requires r == base.(exit := ClientAborted, shortRead := false, fdClosed := true)
    requires st.writesUsed < r.writesUsed && IsClientAbort(writes[r.writesUsed - 1].err)
    requires ChunkAfter(got, lim, writes, st.writesUsed, r.writesUsed).written < got
    ensures SendOutcome(r, data, fileLen, bufSize, lim, fileReads, writes)
  {
    ChunkOfRead(st, got, data, fileLen, bufSize, lim, fileReads, writes);
    ChunkCutOfRead(st, r.writesUsed, got, data, fileLen, bufSize, lim, fileReads, writes);
    PrefixExtends(data, st.bytesSent, got, st.wire, piece, ChunkAfter(got, lim, writes, st.writesUsed, r.writesUsed).written,
                  FailuresTransferNothing(writes));
    DelaysWithinAppend(st.delays, chunkDelays, lim);
    ReadsOkExtend(fileReads, st.readsUsed);
    EndsWellCutShort(r, data, fileLen, bufSize, lim, fileReads, writes);
  }

  lemma EndsWellWhenWritesRunOut(st: BodyResult, base: BodyResult, r: BodyResult, piece: seq<byte>, chunkDelays: seq<nat>, got: nat,
                                 data: seq<byte>, fileLen: int, bufSize: nat, lim: TransferLimits,
                                 fileReads: seq<ReadOutcome>, writes: seq<WriteOutcome>)
    requires ChunkStep(st, base, piece, chunkDelays, got, data, fileLen, bufSize, lim, fileReads, writes)
    requires r == base.(exit := BodyPending, shortRead := false, fdClosed := false)
    requires r.writesUsed == |writes| && (st.writesUsed < r.writesUsed ==> !IsClientAbort(writes[r.writesUsed - 1].err))
    requires ChunkAfter(got, lim, writes, st.writesUsed, r.writesUsed).written < got
    ensures SendOutcome(r, data, fileLen, bufSize, lim, fileReads, writes)
  {
    ChunkOfRead(st, got, data, fileLen, bufSize, lim, fileReads, writes);
    ChunkCutOfRead(st, r.writesUsed, got, data, fileLen, bufSize, lim, fileReads, writes);
    PrefixExtends(data, st.bytesSent, got, st.wire, piece, ChunkAfter(got, lim, writes, st.writesUsed, r.writesUsed).written,
                  FailuresTransferNothing(writes));
    DelaysWithinAppend(st.delays, chunkDelays, lim);
    ReadsOkExtend(fileReads, st.readsUsed);
    EndsWellCutShort(r, data, fileLen, bufSize, lim, fileReads, writes);
  }

  lemma ProgressAfterChunk(st: BodyResult, base: BodyResult, r: BodyResult, piece: seq<byte>, chunkDelays: seq<nat>, got: nat,
                           data: seq<byte>, fileLen: int, bufSize: nat, lim: TransferLimits,
                           fileReads: seq<ReadOutcome>, writes: seq<WriteOutcome>)
    requires ChunkStep(st, base, piece, chunkDelays, got, data, fileLen, bufSize, lim, fileReads, writes)
    requires r == base.(bytesSent := st.bytesSent + got)
    requires st.writesUsed < r.writesUsed ==> !IsClientAbort(writes[r.writesUsed - 1].err)
    requires ChunkAfter(got, lim, writes, st.writesUsed, r.writesUsed).written == got
    ensures SendProgress(r, data, fileLen, bufSize, lim, fileReads, writes)
  {
    ChunkOfRead(st, got, data, fileLen, bufSize, lim, fileReads, writes);
    ChunkDoneOfRead(st, r.writesUsed, got, data, fileLen, bufSize, lim, fileReads, writes);
    PrefixExtends(data, st.bytesSent, got, st.wire, piece, ChunkAfter(got, lim, writes, st.writesUsed, r.writesUsed).written,
                  FailuresTransferNothing(writes));
    DelaysWithinAppend(st.delays, chunkDelays, lim);
    ReadsOkExtend(fileReads, st.readsUsed);
  }

  /** The chunk the inner loop writes is the one the read delivered. */
  lemma ChunkOfRead(st: BodyResult, got: nat, data: seq<byte>, fileLen: int, bufSize: nat, lim: TransferLimits,
                    fileReads: seq<ReadOutcome>, writes: seq<WriteOutcome>)
    requires SendProgress(st, data, fileLen, bufSize, lim, fileReads, writes)
    requires st.readsUsed < |fileReads| && fileReads[st.readsUsed].ReadOk? && st.bytesSent < fileLen
    requires got == Delivered(fileReads[st.readsUsed].n, Min(bufSize, fileLen - st.bytesSent), |data| - st.bytesSent)
    ensures ChunkLen(fileReads, st.readsUsed, |data|, fileLen, bufSize) == got
    ensures 0 < got ==> ReadsDeliver(fileReads, st.readsUsed + 1, |data|, fileLen, bufSize)
  {
  }

  /** A chunk written in full extends the record of the writes by one chunk. */
  lemma ChunkDoneOfRead(st: BodyResult, used: nat, got: nat, data: seq<byte>, fileLen: int, bufSize: nat, lim: TransferLimits,
                        fileReads: seq<ReadOutcome>, writes: seq<WriteOutcome>)
    requires SendProgress(st, data, fileLen, bufSize, lim, fileReads, writes)
    requires st.readsUsed < |fileReads| && fileReads[st.readsUsed].ReadOk? && st.bytesSent < fileLen
    requires got == Delivered(fileReads[st.readsUsed].n, Min(bufSize, fileLen - st.bytesSent), |data| - st.bytesSent)
    requires used == ChunkStop(got, lim, writes, st.writesUsed)
    requires ChunkAfter(got, lim, writes, st.writesUsed, used).written == got
    ensures WritesAfterChunks(fileReads, st.readsUsed + 1, |data|, fileLen, bufSize, lim, writes) == Some(used)
    ensures DelaysOfChunks(fileReads, st.readsUsed + 1, |data|, fileLen, bufSize, lim, writes)
            == st.delays + ChunkDelays(got, lim, writes, st.writesUsed, used)
  {
    ChunkOfRead(st, got, data, fileLen, bufSize, lim, fileReads, writes);
  }

  /** A chunk cut short ends the record of the writes within the chunk of this read. */
  lemma ChunkCutOfRead(st: BodyResult, used: nat, got: nat, data: seq<byte>, fileLen: int, bufSize: nat, lim: TransferLimits,
                       fileReads: seq<ReadOutcome>, writes: seq<WriteOutcome>)
    requires SendProgress(st, data, fileLen, bufSize, lim, fileReads, writes)
    requires st.readsUsed < |fileReads| && fileReads[st.readsUsed].ReadOk? && st.bytesSent < fileLen
    requires got == Delivered(fileReads[st.readsUsed].n, Min(bufSize, fileLen - st.bytesSent), |data| - st.bytesSent)
    requires used == ChunkStop(got, lim, writes, st.writesUsed)
    requires ChunkAfter(got, lim, writes, st.writesUsed, used).written < got
    ensures ChunkCutShort(fileReads, st.readsUsed, used, |data|, fileLen, bufSize, lim, writes)
    ensures DelaysCutShort(fileReads, st.readsUsed, used, |data|, fileLen, bufSize, lim, writes)
            == st.delays + ChunkDelays(got, lim, writes, st.writesUsed, used)
  {
    ChunkOfRead(st, got, data, fileLen, bufSize, lim, fileReads, writes);
  }

  /** The state of the inner write loop after the write outcomes
      `writes[from..upto]`, from nothing written and `retry_count == 1`: each
      outcome takes one step, and a client abort leaves the state as it was. */
  function ChunkAfter(len: nat, lim: TransferLimits, writes: seq<WriteOutcome>, from: nat, upto: nat): (s: ChunkState)
    requires from <= upto <= |writes|
    ensures s.written <= len
    decreases upto
  {
    if upto == from then ChunkState(0, 1)
    else
      var s := ChunkAfter(len, lim, writes, from, upto - 1);
      match BodyWriteStep(s, writes[upto - 1], len - s.written, lim)
      case Abort => s
      case Retry(next, _) => next
      case Advance(next) => next
  }

  /** The backoff delays the inner write loop waits over the outcomes
      `writes[from..upto]`: one for each step that retries, `RETRY_DELAY` times
      the raised retry counter, in order. */
  function ChunkDelays(len: nat, lim: TransferLimits, writes: seq<WriteOutcome>, from: nat, upto: nat): (delays: seq<nat>)
    requires from <= upto <= |writes|
    decreases upto
  {
    if upto == from then []
    else
      var s := ChunkAfter(len, lim, writes, from, upto - 1);
      var before := ChunkDelays(len, lim, writes, from, upto - 1);
      match BodyWriteStep(s, writes[upto - 1], len - s.written, lim)
      case Retry(_, delay) => before + [delay]
      case _ => before
  }

  /** The inner loop can stop after the outcomes `writes[from..k]`: the chunk
      of `len` bytes is written, the last write was a client abort, or the
      outcomes ran out. */
  predicate ChunkStopsAt(len: nat, lim: TransferLimits, writes: seq<WriteOutcome>, from: nat, k: nat)
    requires from <= k <= |writes|
  {
    || k == |writes|
    || ChunkAfter(len, lim, writes, from, k).written == len
    || (from < k && IsClientAbort(writes[k - 1].err))
  }

  /** The first index at or after `k` where the inner loop can stop. */
  function ChunkStopFrom(len: nat, lim: TransferLimits, writes: seq<WriteOutcome>, from: nat, k: nat): (e: nat)
    requires from <= k <= |writes|
    ensures k <= e <= |writes| && ChunkStopsAt(len, lim, writes, from, e)
    decreases |writes| - k
  {
    if ChunkStopsAt(len, lim, writes, from, k) then k else ChunkStopFrom(len, lim, writes, from, k + 1)
  }

  /** Where the inner loop writing a chunk of `len` bytes from `writes[from]` on stops. */
  function ChunkStop(len: nat, lim: TransferLimits, writes: seq<WriteOutcome>, from: nat): (e: nat)
    requires from <= |writes|
    ensures from <= e <= |writes| && ChunkStopsAt(len, lim, writes, from, e)
  {
    ChunkStopFrom(len, lim, writes, from, from)
  }

  /** The inner loop stops at the FIRST point where it can: at no earlier index
      was the chunk written, a client abort seen, or the outcomes exhausted. */
  lemma {:induction false} ChunkStopIsFirst(len: nat, lim: TransferLimits, writes: seq<WriteOutcome>, from: nat, k: nat, j: nat)
    requires from <= k <= |writes|
    requires k <= j < ChunkStopFrom(len, lim, writes, from, k)
    ensures !ChunkStopsAt(len, lim, writes, from, j)
    decreases j - k
  {
    if k < j {
      ChunkStopIsFirst(len, lim, writes, from, k + 1, j);
    }
  }

  datatype ChunkExit = ChunkDone | ChunkAborted | ChunkStalled

  /** What the inner write loop did with one chunk: how it ended, where it
      stopped in the write outcomes, the delays it waited and the bytes it put
      on the wire. */
  datatype ChunkWrite = ChunkWrite(exit: ChunkExit, writesUsed: nat, delays: seq<nat>, piece: seq<byte>)

  /** The inner loop of `sendResource`: writes `chunk` from the outcome at
      index `from` on, with `retry_count` starting at 1. */
  method WriteChunk(chunk: seq<byte>, lim: TransferLimits, writes: seq<WriteOutcome>, from: nat) returns (c: ChunkWrite)
    requires from <= |writes|
    // the loop stops at the first write that completes the chunk or is a client abort, or when
    // the outcomes run out; it is done exactly when the writes it consumed moved the whole chunk,
    // and with asio's convention the client holds the part of the chunk those writes moved
    ensures ChunkOutcome(chunk, lim, writes, from, c)
  {
    var s := ChunkState(0, 1);
    var wi := from;
    var delays: seq<nat> := [];
    var piece: seq<byte> := [];
    while s.written < |chunk|
      invariant WriteProgress(chunk, lim, writes, from, wi, s, delays, piece)
      decreases |writes| - wi
    {
      if wi == |writes| {
        c := ChunkWrite(ChunkStalled, wi, delays, piece);
        ChunkEndsWhenWritesRunOut(chunk, lim, writes, from, s, c);
        return;
      }
      var w := writes[wi];
      var k := Moved(w, |chunk| - s.written);
      var piece' := piece + chunk[s.written .. s.written + k];
      match BodyWriteStep(s, w, |chunk| - s.written, lim) {
        case Abort =>
          c := ChunkWrite(ChunkAborted, wi + 1, delays, piece');
          ChunkEndsOnAbort(chunk, lim, writes, from, wi, s, delays, piece, c);
          return;
        case Retry(next, delay) =>
          ProgressAfterRetry(chunk, lim, writes, from, wi, s, delays, piece, next, delay);
          s, delays := next, delays + [delay];
        case Advance(next) =>
          ProgressAfterAdvance(chunk, lim, writes, from, wi, s, delays, piece, next);
          s := next;
      }
      wi, piece := wi + 1, piece';
    }
    c := ChunkWrite(ChunkDone, wi, delays, piece);
    ChunkEndsWritten(chunk, lim, writes, from, s, c);
  }

  /** What holds at the top of the inner write loop once it has consumed
      `writes[from..wi]`: its state is the one those outcomes lead to, it has
      not yet passed the point where it stops, none of them was a client
      abort, and the client holds the part of the chunk counted as written. */
  predicate WriteProgress(chunk: seq<byte>, lim: TransferLimits, writes: seq<WriteOutcome>, from: nat,
                          wi: nat, s: ChunkState, delays: seq<nat>, piece: seq<byte>)
  {
    && from <= wi <= |writes|
    && s == ChunkAfter(|chunk|, lim, writes, from, wi)
    && ChunkStop(|chunk|, lim, writes, from) == ChunkStopFrom(|chunk|, lim, writes, from, wi)
    && delays == ChunkDelays(|chunk|, lim, writes, from, wi)
    && DelaysWithin(delays, lim)
    && (FailuresTransferNothing(writes) ==> piece == chunk[..s.written])
    && (forall j :: from <= j < wi ==> !IsClientAbort(writes[j].err))
  }

  /** What `WriteChunk` promises of its result `c`. */
  predicate ChunkOutcome(chunk: seq<byte>, lim: TransferLimits, writes: seq<WriteOutcome>, from: nat, c: ChunkWrite)
    requires from <= |writes|
  {
    && c.writesUsed == ChunkStop(|chunk|, lim, writes, from)
    && (c.exit == ChunkDone <==> ChunkAfter(|chunk|, lim, writes, from, c.writesUsed).written == |chunk|)
    && (c.exit == ChunkAborted <==> from < c.writesUsed && IsClientAbort(writes[c.writesUsed - 1].err))
    && (c.exit == ChunkStalled ==> c.writesUsed == |writes|)
    && (forall j :: from <= j < c.writesUsed - 1 ==> !IsClientAbort(writes[j].err))
    && c.delays == ChunkDelays(|chunk|, lim, writes, from, c.writesUsed)
    && DelaysWithin(c.delays, lim)
    && (FailuresTransferNothing(writes) ==> c.piece == chunk[..ChunkAfter(|chunk|, lim, writes, from, c.writesUsed).written])
  }

  lemma ChunkEndsWhenWritesRunOut(chunk: seq<byte>, lim: TransferLimits, writes: seq<WriteOutcome>, from: nat,
                                  s: ChunkState, c: ChunkWrite)
    requires WriteProgress(chunk, lim, writes, from, |writes|, s, c.delays, c.piece)
    requires s.written < |chunk| && c.exit == ChunkStalled && c.writesUsed == |writes|
    ensures ChunkOutcome(chunk, lim, writes, from, c)
  {
    assert ChunkStopFrom(|chunk|, lim, writes, from, |writes|) == |writes|;
  }

  lemma ChunkEndsOnAbort(chunk: seq<byte>, lim: TransferLimits, writes: seq<WriteOutcome>, from: nat,
                         wi: nat, s: ChunkState, delays: seq<nat>, piece: seq<byte>, c: ChunkWrite)
    requires WriteProgress(chunk, lim, writes, from, wi, s, delays, piece)
    requires wi < |writes| && s.written < |chunk| && IsClientAbort(writes[wi].err)
    requires c == ChunkWrite(ChunkAborted, wi + 1, delays,
                             piece + chunk[s.written .. s.written + Moved(writes[wi], |chunk| - s.written)])
    ensures ChunkOutcome(chunk, lim, writes, from, c)
  {
    assert !ChunkStopsAt(|chunk|, lim, writes, from, wi);
    assert ChunkStopFrom(|chunk|, lim, writes, from, wi) == ChunkStopFrom(|chunk|, lim, writes, from, wi + 1);
    assert ChunkStopFrom(|chunk|, lim, writes, from, wi + 1) == wi + 1;
    assert ChunkAfter(|chunk|, lim, writes, from, wi + 1) == s;
    assert ChunkDelays(|chunk|, lim, writes, from, wi + 1) == c.delays;
  }

  lemma ChunkEndsWritten(chunk: seq<byte>, lim: TransferLimits, writes: seq<WriteOutcome>, from: nat,
                         s: ChunkState, c: ChunkWrite)
    requires WriteProgress(chunk, lim, writes, from, c.writesUsed, s, c.delays, c.piece)
    requires s.written == |chunk| && c.exit == ChunkDone
    ensures ChunkOutcome(chunk, lim, writes, from, c)
  {
    assert ChunkStopFrom(|chunk|, lim, writes, from, c.writesUsed) == c.writesUsed;
  }

  lemma ProgressAfterRetry(chunk: seq<byte>, lim: TransferLimits, writes: seq<WriteOutcome>, from: nat,
                           wi: nat, s: ChunkState, delays: seq<nat>, piece: seq<byte>, next: ChunkState, delay: nat)
    requires WriteProgress(chunk, lim, writes, from, wi, s, delays, piece)
    requires wi < |writes| && s.written < |chunk|
    requires BodyWriteStep(s, writes[wi], |chunk| - s.written, lim) == Retry(next, delay)
    ensures WriteProgress(chunk, lim, writes, from, wi + 1, next, delays + [delay],
                          piece + chunk[s.written .. s.written + Moved(writes[wi], |chunk| - s.written)])
  {
    assert !ChunkStopsAt(|chunk|, lim, writes, from, wi);
    assert ChunkAfter(|chunk|, lim, writes, from, wi + 1) == next;
    BackoffWithinBudget(lim, next.retry);
  }

  lemma ProgressAfterAdvance(chunk: seq<byte>, lim: TransferLimits, writes: seq<WriteOutcome>, from: nat,
                             wi: nat, s: ChunkState, delays: seq<nat>, piece: seq<byte>, next: ChunkState)
    requires WriteProgress(chunk, lim, writes, from, wi, s, delays, piece)
    requires wi < |writes| && s.written < |chunk|
    requires BodyWriteStep(s, writes[wi], |chunk| - s.written, lim) == Advance(next)
    ensures WriteProgress(chunk, lim, writes, from, wi + 1, next, delays,
                          piece + chunk[s.written .. s.written + Moved(writes[wi], |chunk| - s.written)])
  {
    assert !ChunkStopsAt(|chunk|, lim, writes, from, wi);
    assert ChunkAfter(|chunk|, lim, writes, from, wi + 1) == next;
  }

  /** A file prefix followed by a prefix of the next chunk is a longer file
      prefix (stated under the condition `known` that the two parts are such). */
  lemma PrefixExtends(data: seq<byte>, sent: nat, got: nat, wire: seq<byte>, piece: seq<byte>, written: nat, known: bool)
    requires sent + got <= |data| && written <= got
    requires known ==> wire == data[..sent] && piece == data[sent..sent + got][..written]
    ensures known ==> |wire + piece| == sent + written && wire + piece == data[..sent + written]
  {
    assert data[sent..sent + got][..written] == data[sent..sent + written];
  }

  /** The last write consumed was a client abort. */
  predicate LastWriteAborted(used: nat, writes: seq<WriteOutcome>)
    requires 0 < used <= |writes|
  {
    IsClientAbort(writes[used - 1].err)
  }

  lemma BackoffWithinBudget(lim: TransferLimits, k: nat)
    requires 1 <= k <= lim.maxRetries + 1
    ensures lim.retryDelay <= lim.retryDelay * k <= lim.retryDelay * (lim.maxRetries + 1)
  {
    MultiplyMonotone(lim.retryDelay, 1, k);
    MultiplyMonotone(lim.retryDelay, k, lim.maxRetries + 1);
  }

  lemma MultiplyMonotone(d: nat, a: nat, b: nat)
    requires a <= b
    ensures d * a <= d * b
  {
  }

  /** How a run of `sendResource`'s loop ends: the exit, the outcomes it
      consumed, `bytes_sent`, whether a zero-length read ended it and the
      backoff delays it waited. */
  datatype BodyRun = BodyRun(exit: BodyExit, readsUsed: nat, writesUsed: nat, bytesSent: nat, shortRead: bool, delays: seq<nat>)

  /** The loop of src/GetHandler.cpp:27-59 written as a recursion, from the
      top of its pass for read `k`, the chunks of the reads before it having
      gone out in full. The pass stops once `bytes_sent` reaches the declared
      length; otherwise it makes read `k`, stops on a failed or empty read,
      and writes the chunk, going on to read `k + 1` only when the chunk went
      out in full. */
  function TransferFrom(fileReads: seq<ReadOutcome>, k: nat, dataLen: nat, fileLen: int, bufSize: nat,
                        lim: TransferLimits, writes: seq<WriteOutcome>): BodyRun
    requires k <= |fileReads| && WritesAfterChunks(fileReads, k, dataLen, fileLen, bufSize, lim, writes).Some?
    decreases |fileReads| - k
  {
    var used := WritesAfterChunks(fileReads, k, dataLen, fileLen, bufSize, lim, writes).value;
    var sent := SentAfter(fileReads, k, dataLen, fileLen, bufSize);
    var delays := DelaysOfChunks(fileReads, k, dataLen, fileLen, bufSize, lim, writes);
    if fileLen <= sent then BodyRun(Finished, k, used, sent, false, delays)
    else if k == |fileReads| then BodyRun(BodyPending, k, used, sent, false, delays)
    else if fileReads[k].ReadFailed? then BodyRun(ReadRaised, k + 1, used, sent, false, delays)
    else
      var len := ChunkLen(fileReads, k, dataLen, fileLen, bufSize);
      var stop := ChunkStop(len, lim, writes, used);
      if len == 0 then BodyRun(Finished, k + 1, used, sent, true, delays)
      else if ChunkAfter(len, lim, writes, used, stop).written == len then
        TransferFrom(fileReads, k + 1, dataLen, fileLen, bufSize, lim, writes)
      else
        var cut := delays + ChunkDelays(len, lim, writes, used, stop);
        if used < stop && IsClientAbort(writes[stop - 1].err) then BodyRun(ClientAborted, k + 1, stop, sent, false, cut)
        else BodyRun(BodyPending, k + 1, stop, sent, false, cut)
  }

  /** `r` reports the run `t`. */
  predicate ReportsRun(r: BodyResult, t: BodyRun)
  {
    && r.exit == t.exit && r.readsUsed == t.readsUsed && r.writesUsed == t.writesUsed
    && r.bytesSent == t.bytesSent && r.shortRead == t.shortRead && r.delays == t.delays
  }

  /** `SendOutcome` leaves no freedom in how the transfer ends: a result that
      meets it reports exactly the run of the loop over the same outcomes, on
      every input. */
  lemma SendOutcomeIsTheRun(r: BodyResult, data: seq<byte>, fileLen: int, bufSize: nat, lim: TransferLimits,
                            fileReads: seq<ReadOutcome>, writes: seq<WriteOutcome>)
    requires SendOutcome(r, data, fileLen, bufSize, lim, fileReads, writes)
    ensures ReportsRun(r, TransferFrom(fileReads, 0, |data|, fileLen, bufSize, lim, writes))
  {
    if r.exit == ReadRaised || r.shortRead {
      RunEndsOnEmptyRead(r, data, fileLen, bufSize, lim, fileReads, writes);
    } else if r.exit == Finished {
      RunEndsAtTop(r, data, fileLen, bufSize, lim, fileReads, writes);
    } else if r.exit == ClientAborted {
      RunEndsWithinChunk(r, data, fileLen, bufSize, lim, fileReads, writes);
    } else if && r.readsUsed == |fileReads| && r.bytesSent < fileLen
              && r.bytesSent == SentAfter(fileReads, r.readsUsed, |data|, fileLen, bufSize)
              && WritesAfterChunks(fileReads, r.readsUsed, |data|, fileLen, bufSize, lim, writes) == Some(r.writesUsed)
              && r.delays == DelaysOfChunks(fileReads, r.readsUsed, |data|, fileLen, bufSize, lim, writes) {
      RunEndsAtTop(r, data, fileLen, bufSize, lim, fileReads, writes);
    } else {
      RunEndsWithinChunk(r, data, fileLen, bufSize, lim, fileReads, writes);
    }
  }

  /** A transfer that finished without a short read, or ran out of reads,
      ended at the top of a pass. */
  lemma RunEndsAtTop(r: BodyResult, data: seq<byte>, fileLen: int, bufSize: nat, lim: TransferLimits,
                     fileReads: seq<ReadOutcome>, writes: seq<WriteOutcome>)
    requires r.readsUsed <= |fileReads| && ReadsDeliver(fileReads, r.readsUsed, |data|, fileLen, bufSize)
    requires WritesAfterChunks(fileReads, r.readsUsed, |data|, fileLen, bufSize, lim, writes) == Some(r.writesUsed)
    requires r.bytesSent == SentAfter(fileReads, r.readsUsed, |data|, fileLen, bufSize)
    requires r.delays == DelaysOfChunks(fileReads, r.readsUsed, |data|, fileLen, bufSize, lim, writes)
    requires !r.shortRead
    requires || (r.exit == Finished && fileLen <= r.bytesSent)
             || (r.exit == BodyPending && r.readsUsed == |fileReads| && r.bytesSent < fileLen)
    ensures ReportsRun(r, TransferFrom(fileReads, 0, |data|, fileLen, bufSize, lim, writes))
  {
    TransferSkipsDelivered(fileReads, 0, r.readsUsed, |data|, fileLen, bufSize, lim, writes);
  }

  /** A transfer that ended on a failed or empty read ended in the pass that
      made its last read. */
  lemma RunEndsOnEmptyRead(r: BodyResult, data: seq<byte>, fileLen: int, bufSize: nat, lim: TransferLimits,
                           fileReads: seq<ReadOutcome>, writes: seq<WriteOutcome>)
    requires 0 < r.readsUsed <= |fileReads|
    requires ReadsDeliver(fileReads, r.readsUsed - 1, |data|, fileLen, bufSize)
    requires SentAfter(fileReads, r.readsUsed - 1, |data|, fileLen, bufSize) < fileLen
    requires ChunkLen(fileReads, r.readsUsed - 1, |data|, fileLen, bufSize) == 0
    requires || (r.exit == ReadRaised && !r.shortRead && fileReads[r.readsUsed - 1].ReadFailed?)
             || (r.exit == Finished && r.shortRead && fileReads[r.readsUsed - 1].ReadOk?)
    requires r.bytesSent == SentAfter(fileReads, r.readsUsed, |data|, fileLen, bufSize)
    requires WritesAfterChunks(fileReads, r.readsUsed, |data|, fileLen, bufSize, lim, writes) == Some(r.writesUsed)
    requires r.delays == DelaysOfChunks(fileReads, r.readsUsed, |data|, fileLen, bufSize, lim, writes)
    ensures ReportsRun(r, TransferFrom(fileReads, 0, |data|, fileLen, bufSize, lim, writes))
  {
    var k := r.readsUsed - 1;
    WritesBeforeChunks(fileReads, k, |data|, fileLen, bufSize, lim, writes);
    EmptyChunkTakesNoWrites(fileReads, k, |data|, fileLen, bufSize, lim, writes);
    TransferSkipsDelivered(fileReads, 0, k, |data|, fileLen, bufSize, lim, writes);
  }

  /** A transfer that was aborted, or ran out of writes, ended in the pass
      whose chunk did not go out in full. */
  lemma RunEndsWithinChunk(r: BodyResult, data: seq<byte>, fileLen: int, bufSize: nat, lim: TransferLimits,
                           fileReads: seq<ReadOutcome>, writes: seq<WriteOutcome>)
    requires 0 < r.readsUsed <= |fileReads| && r.writesUsed <= |writes|
    requires ReadsDeliver(fileReads, r.readsUsed - 1, |data|, fileLen, bufSize)
    requires SentAfter(fileReads, r.readsUsed - 1, |data|, fileLen, bufSize) < fileLen
    requires fileReads[r.readsUsed - 1].ReadOk? && !r.shortRead
    requires r.bytesSent == SentAfter(fileReads, r.readsUsed - 1, |data|, fileLen, bufSize)
    requires ChunkCutShort(fileReads, r.readsUsed - 1, r.writesUsed, |data|, fileLen, bufSize, lim, writes)
    requires r.delays == DelaysCutShort(fileReads, r.readsUsed - 1, r.writesUsed, |data|, fileLen, bufSize, lim, writes)
    requires || (&& r.exit == ClientAborted && 0 < r.writesUsed && LastWriteAborted(r.writesUsed, writes)
                 && WritesAfterChunks(fileReads, r.readsUsed - 1, |data|, fileLen, bufSize, lim, writes).value < r.writesUsed)
             || (&& r.exit == BodyPending && r.writesUsed == |writes|
                 && forall j :: 0 <= j < r.writesUsed ==> !IsClientAbort(writes[j].err))
    ensures ReportsRun(r, TransferFrom(fileReads, 0, |data|, fileLen, bufSize, lim, writes))
  {
    var k := r.readsUsed - 1;
    TransferSkipsDelivered(fileReads, 0, k, |data|, fileLen, bufSize, lim, writes);
    var used := WritesAfterChunks(fileReads, k, |data|, fileLen, bufSize, lim, writes).value;
    var len := ChunkLen(fileReads, k, |data|, fileLen, bufSize);
    // the chunk was left unfinished at the write the run stops at
    assert ChunkStop(len, lim, writes, used) == r.writesUsed && 0 < len;
  }

  /** The run passes over reads that delivered a chunk which went out in full. */
  lemma {:induction false} TransferSkipsDelivered(fileReads: seq<ReadOutcome>, k: nat, m: nat, dataLen: nat, fileLen: int,
                                                  bufSize: nat, lim: TransferLimits, writes: seq<WriteOutcome>)
    requires k <= m <= |fileReads| && ReadsDeliver(fileReads, m, dataLen, fileLen, bufSize)
    requires WritesAfterChunks(fileReads, m, dataLen, fileLen, bufSize, lim, writes).Some?
    ensures WritesAfterChunks(fileReads, k, dataLen, fileLen, bufSize, lim, writes).Some?
    ensures TransferFrom(fileReads, k, dataLen, fileLen, bufSize, lim, writes)
            == TransferFrom(fileReads, m, dataLen, fileLen, bufSize, lim, writes)
    decreases m - k
  {
    if k < m {
      TransferSkipsDelivered(fileReads, k + 1, m, dataLen, fileLen, bufSize, lim, writes);
      WritesBeforeChunks(fileReads, k, dataLen, fileLen, bufSize, lim, writes);
      ReadsDeliverEach(fileReads, m, dataLen, fileLen, bufSize, k);
    }
  }

  /** Before a chunk that went out, the chunks before it went out too. */
  lemma WritesBeforeChunks(fileReads: seq<ReadOutcome>, k: nat, dataLen: nat, fileLen: int, bufSize: nat,
                           lim: TransferLimits, writes: seq<WriteOutcome>)
    requires k < |fileReads| && WritesAfterChunks(fileReads, k + 1, dataLen, fileLen, bufSize, lim, writes).Some?
    ensures WritesAfterChunks(fileReads, k, dataLen, fileLen, bufSize, lim, writes).Some?
  {
  }

  /** An empty chunk takes no writes and waits no delays. */
  lemma EmptyChunkTakesNoWrites(fileReads: seq<ReadOutcome>, k: nat, dataLen: nat, fileLen: int, bufSize: nat,
                                lim: TransferLimits, writes: seq<WriteOutcome>)
    requires k < |fileReads| && ChunkLen(fileReads, k, dataLen, fileLen, bufSize) == 0
    requires WritesAfterChunks(fileReads, k, dataLen, fileLen, bufSize, lim, writes).Some?
    ensures WritesAfterChunks(fileReads, k + 1, dataLen, fileLen, bufSize, lim, writes)
            == WritesAfterChunks(fileReads, k, dataLen, fileLen, bufSize, lim, writes)
    ensures DelaysOfChunks(fileReads, k + 1, dataLen, fileLen, bufSize, lim, writes)
            == DelaysOfChunks(fileReads, k, dataLen, fileLen, bufSize, lim, writes)
  {
    var start := WritesAfterChunks(fileReads, k, dataLen, fileLen, bufSize, lim, writes).value;
    assert ChunkStopFrom(0, lim, writes, start, start) == start;
  }

  /** With well-behaved I/O the transfer completes: when every read delivers at
      least a buffer's worth, the file holds at least the declared length,
      every write succeeds and reports at least a buffer's worth, and there are
      enough reads for the declared length and a write for each read, the
      transfer finishes having sent exactly the declared length (none for a
      negative one), and the client holds exactly those bytes. */
  lemma GoodOutcomesFinish(r: BodyResult, data: seq<byte>, fileLen: int, bufSize: nat, lim: TransferLimits,
                           fileReads: seq<ReadOutcome>, writes: seq<WriteOutcome>)
    requires SendOutcome(r, data, fileLen, bufSize, lim, fileReads, writes)
    requires 0 < bufSize && fileLen <= |data|
    requires forall j :: 0 <= j < |fileReads| ==> fileReads[j].ReadOk? && bufSize <= fileReads[j].n
    requires forall j :: 0 <= j < |writes| ==> writes[j].err == NoError && bufSize <= writes[j].n
    requires fileLen <= |fileReads| * bufSize && |fileReads| <= |writes|
    ensures r.exit == Finished && !r.shortRead
    ensures r.bytesSent == (if fileLen < 0 then 0 else fileLen)
    ensures r.wire == data[..r.bytesSent]
  {
    assert FailuresTransferNothing(writes);
    GoodReadsSend(data, fileLen, bufSize, fileReads, |fileReads|);
    if 0 < r.readsUsed {
      GoodWritesFinishChunks(data, fileLen, bufSize, lim, fileReads, writes, r.readsUsed - 1, r.writesUsed);
    }
    // no read fails and no write is a client abort
    assert r.exit != ReadRaised && r.exit != ClientAborted;
    // the reads suffice for the declared length, and each chunk is written in full
    assert r.exit != BodyPending;
    // every read within the declared length delivers something
    assert !r.shortRead;
  }

  /** With writes that always succeed and report a full buffer, no chunk is cut short. */
  lemma GoodWritesFinishChunks(data: seq<byte>, fileLen: int, bufSize: nat, lim: TransferLimits,
                               fileReads: seq<ReadOutcome>, writes: seq<WriteOutcome>, k: nat, used: nat)
    requires k < |fileReads| <= |writes|
    requires forall j :: 0 <= j < |writes| ==> writes[j].err == NoError && bufSize <= writes[j].n
    ensures !ChunkCutShort(fileReads, k, used, |data|, fileLen, bufSize, lim, writes)
  {
    GoodWritesKeepUp(data, fileLen, bufSize, lim, fileReads, writes, k);
    GoodChunkCompletes(ChunkLen(fileReads, k, |data|, fileLen, bufSize), lim, writes,
                       WritesAfterChunks(fileReads, k, |data|, fileLen, bufSize, lim, writes).value);
  }

  /** With reads that always deliver a full buffer from a file holding the
      declared length, `bytes_sent` grows by a buffer per read up to that length. */
  lemma {:induction false} GoodReadsSend(data: seq<byte>, fileLen: int, bufSize: nat, fileReads: seq<ReadOutcome>, k: nat)
    requires k <= |fileReads| && fileLen <= |data|
    requires forall j :: 0 <= j < |fileReads| ==> fileReads[j].ReadOk? && bufSize <= fileReads[j].n
    ensures SentAfter(fileReads, k, |data|, fileLen, bufSize) == (if fileLen < 0 then 0 else Min(k * bufSize, fileLen))
  {
    if 0 < k {
      GoodReadsSend(data, fileLen, bufSize, fileReads, k - 1);
      assert k * bufSize == (k - 1) * bufSize + bufSize;
    }
  }

  /** With writes that always succeed and report a full buffer, every chunk
      goes out with at most one write each. */
  lemma {:induction false} GoodWritesKeepUp(data: seq<byte>, fileLen: int, bufSize: nat, lim: TransferLimits,
                                            fileReads: seq<ReadOutcome>, writes: seq<WriteOutcome>, k: nat)
    requires k <= |fileReads| <= |writes|
    requires forall j :: 0 <= j < |writes| ==> writes[j].err == NoError && bufSize <= writes[j].n
    ensures WritesAfterChunks(fileReads, k, |data|, fileLen, bufSize, lim, writes).Some?
    ensures WritesAfterChunks(fileReads, k, |data|, fileLen, bufSize, lim, writes).value <= k
  {
    if 0 < k {
      GoodWritesKeepUp(data, fileLen, bufSize, lim, fileReads, writes, k - 1);
      var start := WritesAfterChunks(fileReads, k - 1, |data|, fileLen, bufSize, lim, writes).value;
      GoodChunkCompletes(ChunkLen(fileReads, k - 1, |data|, fileLen, bufSize), lim, writes, start);
    }
  }

  /** A chunk no longer than what the next, successful write reports is written
      by that one write (by none when it is empty). */
  lemma GoodChunkCompletes(len: nat, lim: TransferLimits, writes: seq<WriteOutcome>, start: nat)
    requires start < |writes| && writes[start].err == NoError && len <= writes[start].n
    ensures ChunkStop(len, lim, writes, start) <= start + 1
    ensures ChunkAfter(len, lim, writes, start, ChunkStop(len, lim, writes, start)).written == len
  {
    if len == 0 {
      assert ChunkStopFrom(len, lim, writes, start, start) == start;
    } else {
      assert ChunkAfter(len, lim, writes, start, start + 1).written == len;
      assert ChunkStopFrom(len, lim, writes, start, start + 1) == start + 1;
    }
  }

  /* ---------------- handle */

  /** What `lseek(fd, 0, SEEK_END)` reports for an opened file, and the bytes
      reading it delivers. */
  datatype FileInfo = FileInfo(seekLength: int, data: seq<byte>)

  /** The report `handle` passes on once `sendResource` has run. */
  function BodyReport(b: BodyResult, header: string): (rep: Report)
    ensures rep.Completed? <==> b.exit == Finished
    ensures rep.Completed? ==> rep == Completed(header, b.bytesSent)
    ensures rep == Failed(ClientClosedRequest) <==> b.exit == ClientAborted
  {
    match b.exit
    case SessionGone => Silent
    case Finished => Completed(header, b.bytesSent)
    case ClientAborted => Failed(ClientClosedRequest)
    case ReadRaised => Raised
    case BodyPending => Pending
  }

  /** The header write loop of `handle`: whether some write succeeded, how
      many writes were made and the delays waited after the failed ones. */
  datatype HeaderWrite = HeaderWrite(sent: bool, attempts: nat, delays: seq<nat>)

  /** Writes the head at most MAX_RETRIES times, waiting RETRY_DELAY * k after
      the k-th failure. Only the error decides: a write that moved fewer bytes
      than the head holds still counts as success. */
  method WriteHeader(lim: TransferLimits, writes: seq<WriteOutcome>) returns (h: HeaderWrite)
    ensures h.attempts <= lim.maxRetries && h.attempts <= |writes|
    ensures |h.delays| == (if h.sent then h.attempts - 1 else h.attempts)
    ensures forall i :: 0 <= i < |h.delays| ==> h.delays[i] == lim.retryDelay * (i + 1)
    ensures forall i :: 0 <= i < |h.delays| ==> writes[i].err != NoError
    ensures h.sent ==> 0 < h.attempts && writes[h.attempts - 1].err == NoError
    // when no write succeeded, every write made failed and either the budget is spent or the
    // outcomes ran out
    ensures !h.sent ==> h.attempts == Min(lim.maxRetries, |writes|)
                        && forall i :: 0 <= i < h.attempts ==> writes[i].err != NoError
    // the head goes out exactly when one of the writes the budget allows succeeds
    ensures h.sent <==> exists i :: 0 <= i < Min(lim.maxRetries, |writes|) && writes[i].err == NoError
  {
    var attempts: nat := 0;
    var delays: seq<nat> := [];
    while attempts < lim.maxRetries
      invariant attempts <= lim.maxRetries && attempts <= |writes|
      invariant |delays| == attempts
      invariant forall i :: 0 <= i < attempts ==> delays[i] == lim.retryDelay * (i + 1)
      invariant forall i :: 0 <= i < attempts ==> writes[i].err != NoError
      decreases lim.maxRetries - attempts
    {
      if attempts == |writes| {
        return HeaderWrite(false, attempts, delays);
      }
      var w := writes[attempts];
      attempts := attempts + 1;
      if w.err == NoError {
        return HeaderWrite(true, attempts, delays);
      }
      delays := delays + [lim.retryDelay * attempts];
    }
    return HeaderWrite(false, attempts, delays);
  }

  /** What `handle` did: its report, the path it opened, the content type and
      head it built, the header write attempts and their backoff delays, the
      body transfer if one ran, and whether the file descriptor was closed. */
  datatype GetOutcome = GetOutcome(
    report: Report,
    openedPath: Option<string>,
    contentType: string,
    header: string,
    headerAttempts: nat,
    headerDelays: seq<nat>,
    body: Option<BodyResult>,
    fdClosed: bool)

  /** A completed transfer agrees with its head: an empty file gets no head and
      no bytes; a file read to its end was sent in full, exactly as many bytes
      as its Content-Length announces; and the client got the file's bytes. */
  predicate CompletionAgreesWithHead(r: GetOutcome, file: FileInfo, writes: seq<WriteOutcome>)
    requires r.report.Completed? && r.body.Some? && r.body.value.bytesSent <= |file.data|
    requires r.report.bytes == r.body.value.bytesSent
  {
    && (file.seekLength == 0 ==> r.report == Completed("", 0))
    && (0 < file.seekLength && !r.body.value.shortRead ==>
          && r.report.bytes == file.seekLength
          && r.header == HeadText(StatusOk, HeaderFields(r.contentType, file.seekLength))
          && DeclaredLength(HeaderFields(r.contentType, file.seekLength)) == Some(r.report.bytes))
    && (FailuresTransferNothing(writes) ==> r.body.value.wire == file.data[..r.report.bytes])
  }

  /** `GetHandler::handle`. `files` maps each path that `open` succeeds on to
      what its descriptor shows; file reads come from `fileReads`, and the
      header and body writes share the socket's `writes`. */
  method Handle(alive: bool, request: seq<byte>, cfg: Config, co: GetCollaborators, files: map<string, FileInfo>,
                lim: TransferLimits, fileReads: seq<ReadOutcome>, writes: seq<WriteOutcome>)
    returns (r: GetOutcome)
    ensures !alive ==> r.report == Silent && r.openedPath == None && r.headerAttempts == 0
    // a rejected request opens nothing; otherwise the resolved path is opened
    ensures alive ==>
              var t := ResolveTarget(co.cleanBuffer(request), cfg, co);
              && (t.Rejected? ==> r.report == Failed(t.code) && r.openedPath == None && r.headerAttempts == 0)
              && (t.Target? ==> r.openedPath == Some(t.path) && r.contentType == t.contentType)
    ensures r.openedPath.Some? && r.openedPath.value in files ==>
              r.header == BuildHeader(r.contentType, files[r.openedPath.value].seekLength)
    ensures r.openedPath.Some? && r.openedPath.value !in files ==>
              r.report == Failed(NotFound) && r.headerAttempts == 0 && !r.fdClosed
    ensures r.openedPath.Some? && r.openedPath.value in files && files[r.openedPath.value].seekLength < 0 ==>
              r.report == Failed(NotFound) && r.headerAttempts == 0 && r.fdClosed
    // at most MAX_RETRIES header writes, waiting RETRY_DELAY * k after the k-th failure
    ensures r.headerAttempts <= lim.maxRetries && |r.headerDelays| <= r.headerAttempts <= |writes|
    ensures forall i :: 0 <= i < |r.headerDelays| ==>
              r.headerDelays[i] == lim.retryDelay * (i + 1) && writes[i].err != NoError
    ensures r.body.Some? ==>
              && r.openedPath.Some? && r.openedPath.value in files
              && 0 < r.headerAttempts && writes[r.headerAttempts - 1].err == NoError
              && |r.headerDelays| == r.headerAttempts - 1
              && r.report == BodyReport(r.body.value, r.header)
              && r.fdClosed == r.body.value.fdClosed
              && r.headerAttempts + r.body.value.writesUsed <= |writes|
              && r.body.value.bytesSent <= |files[r.openedPath.value].data|
              // the body transfer keeps the whole of `sendResource`'s promise, over the writes
              // after the successful header write and reads of the cleaned buffer's size
              && SendOutcome(r.body.value, files[r.openedPath.value].data, files[r.openedPath.value].seekLength,
                             |co.cleanBuffer(request)|, lim, fileReads, writes[r.headerAttempts..])
    // once the file is open, Internal_Server_Error means the header attempts ran out; the
    // descriptor is left open on that path
    ensures r.openedPath.Some? && r.body.None? && r.report == Failed(InternalServerError) ==>
              r.headerAttempts == lim.maxRetries == |r.headerDelays| && !r.fdClosed
    // for a file whose length is known, the body is sent exactly when one of the header writes
    // the budget allows succeeds; otherwise every attempt failed, and the report is
    // Internal_Server_Error once MAX_RETRIES were made, else the outcomes ran out first
    ensures r.openedPath.Some? && r.openedPath.value in files && 0 <= files[r.openedPath.value].seekLength ==>
              && (r.body.Some? <==> exists i :: 0 <= i < Min(lim.maxRetries, |writes|) && writes[i].err == NoError)
              && (r.body.None? ==>
                    && r.headerAttempts == Min(lim.maxRetries, |writes|) && !r.fdClosed
                    && (forall i :: 0 <= i < r.headerAttempts ==> writes[i].err != NoError)
                    && (r.headerAttempts == lim.maxRetries ==> r.report == Failed(InternalServerError))
                    && (r.headerAttempts < lim.maxRetries ==> r.headerAttempts == |writes| && r.report == Pending))
    ensures r.report.Completed? ==>
              r.body.Some? && r.openedPath.Some? && r.openedPath.value in files
              && r.body.value.bytesSent <= |files[r.openedPath.value].data|
              && CompletionAgreesWithHead(r, files[r.openedPath.value], writes)
  {
    if !alive {
      return GetOutcome(Silent, None, "", "", 0, [], None, false);
    }
    var buffer := co.cleanBuffer(request);
    var target := ResolveTarget(buffer, cfg, co);
    if target.Rejected? {
      return GetOutcome(Failed(target.code), None, "", "", 0, [], None, false);
    }
    var path := target.path;
    var ct := target.contentType;
    if path !in files {
      return GetOutcome(Failed(NotFound), Some(path), ct, "", 0, [], None, false);
    }
    var file := files[path];
    var header := BuildHeader(ct, file.seekLength);
    if file.seekLength < 0 {
      return GetOutcome(Failed(NotFound), Some(path), ct, header, 0, [], None, true);
    }
    var h := WriteHeader(lim, writes);
    if !h.sent {
      var report := if h.attempts == lim.maxRetries then Failed(InternalServerError) else Pending;
      return GetOutcome(report, Some(path), ct, header, h.attempts, h.delays, None, false);
    }
    FailuresTransferNothingOnSuffix(writes, h.attempts);
    var body := SendResource(true, file.data, file.seekLength, |buffer|, lim, fileReads, writes[h.attempts..]);
    r := GetOutcome(BodyReport(body, header), Some(path), ct, header, h.attempts, h.delays, Some(body), body.fdClosed);
    CompletedBodyAgreesWithHead(r, file, |buffer|, lim, fileReads, writes);
  }

  /** Once the head has gone out, a transfer that completes agrees with it. */
  lemma CompletedBodyAgreesWithHead(r: GetOutcome, file: FileInfo, bufSize: nat, lim: TransferLimits,
                                    fileReads: seq<ReadOutcome>, writes: seq<WriteOutcome>)
    requires r.body.Some? && 0 <= file.seekLength && r.headerAttempts <= |writes|
    requires SendOutcome(r.body.value, file.data, file.seekLength, bufSize, lim, fileReads, writes[r.headerAttempts..])
    requires FailuresTransferNothing(writes) ==> FailuresTransferNothing(writes[r.headerAttempts..])
    requires r.report == BodyReport(r.body.value, r.header) && r.header == BuildHeader(r.contentType, file.seekLength)
    ensures r.report.Completed? ==> r.body.value.bytesSent <= |file.data| && CompletionAgreesWithHead(r, file, writes)
  {
    if 0 < file.seekLength {
      BuildHeaderAnnouncesLength(r.contentType, file.seekLength);
    }
  }

  lemma FailuresTransferNothingOnSuffix(writes: seq<WriteOutcome>, k: nat)
    requires k <= |writes|
    ensures FailuresTransferNothing(writes) ==> FailuresTransferNothing(writes[k..])
  {
    if FailuresTransferNothing(writes) {
      forall i | 0 <= i < |writes[k..]| && writes[k..][i].err != NoError
        ensures writes[k..][i].n == 0
      {
        assert writes[k..][i] == writes[k + i];
      }
    }
  }
}

=== FILE: http.dfy ===
/** Status codes, the outcome a handler reports to its session, decimal
    rendering of lengths and the text of a response head. */
module Http {

  import opened Wrappers

  /** `http::code`, as far as the handlers use it. */
  datatype Code =
    | OK
    | BadRequest
    | Forbidden
    | NotFound
    | MethodNotAllowed
    | InternalServerError
    | ClientClosedRequest

  /** What a handler tells its session when it ends.
      - Silent: the session could no longer be locked; nothing is reported.
      - Failed: `onError` with the code of the `http::error`.
      - Completed: `onCompletion(header, bytes)`.
      - CompletedResponse: the one-argument `onCompletion(response)`.
      - Raised: an exception left the coroutine before any report.
      - Pending: the environment's outcomes ran out while the handler was
        still suspended in a read or a write. */
  datatype Report =
    | Silent
    | Failed(code: Code)
    | Completed(header: string, bytes: nat)
    | CompletedResponse(response: string)
    | Raised
    | Pending

  /* ---------------- decimal rendering (std::to_string, std::format "{}") */

  predicate IsDigit(c: char)
  {
    '0' <= c <= '9'
  }

  function DigitChar(d: nat): (c: char)
    requires d < 10
    ensures IsDigit(c)
  {
    ('0' as int + d) as char
  }

  function DigitValue(c: char): nat
  {
    if IsDigit(c) then c as int - '0' as int else 0
  }

  /** The shortest decimal text of `n`. */
  function Decimal(n: nat): (s: string)
    ensures 1 <= |s|
    ensures forall i :: 0 <= i < |s| ==> IsDigit(s[i])
    ensures s[0] == '0' <==> n == 0
    ensures n < 10 <==> |s| == 1
    decreases n
  {
    if n < 10 then [DigitChar(n)] else Decimal(n / 10) + [DigitChar(n % 10)]
  }

  /** Reads a run of decimal digits back as a number. */
  function ParseDecimal(s: string): nat
  {
    if |s| == 0 then 0 else 10 * ParseDecimal(s[..|s| - 1]) + DigitValue(s[|s| - 1])
  }

  /** A length written by `Decimal` is read back unchanged. */
  lemma {:induction false} ParseDecimalInvertsDecimal(n: nat)
    ensures ParseDecimal(Decimal(n)) == n
    decreases n
  {
    var s := Decimal(n);
    if n < 10 {
      assert s[..|s| - 1] == [];
    } else {
      assert s[..|s| - 1] == Decimal(n / 10);
      ParseDecimalInvertsDecimal(n / 10);
    }
  }

  /** Two lengths that render to the same text are equal. */
  lemma DecimalInjective(m: nat, n: nat)
    requires Decimal(m) == Decimal(n)
    ensures m == n
  {
    ParseDecimalInvertsDecimal(m);
    ParseDecimalInvertsDecimal(n);
  }

  /* ---------------- response heads */

  datatype Field = Field(name: string, value: string)

  const CRLF: string := "\r\n"

  const StatusOk: string := "HTTP/1.1 200 OK"

  function FieldLines(fields: seq<Field>): string
  {
    if |fields| == 0 then ""
    else FieldLine(fields[0]) + FieldLines(fields[1..])
  }

  function FieldLine(f: Field): string
  {
    f.name + ": " + f.value + CRLF
  }

  lemma FieldLinesOfThree(a: Field, b: Field, c: Field)
    ensures FieldLines([a, b, c]) == FieldLine(a) + FieldLine(b) + FieldLine(c)
  {
    assert [a, b, c][1..] == [b, c];
    assert [b, c][1..] == [c];
    assert [c][1..] == [];
    calc {
      FieldLines([a, b, c]);
      FieldLine(a) + FieldLines([b, c]);
      FieldLine(a) + (FieldLine(b) + FieldLines([c]));
      FieldLine(a) + (FieldLine(b) + (FieldLine(c) + ""));
      { assert FieldLine(c) + "" == FieldLine(c); }
      FieldLine(a) + FieldLine(b) + FieldLine(c);
    }
  }

  /** Status line, one line per field, then the blank line that ends the head. */
  function HeadText(statusLine: string, fields: seq<Field>): string
  {
    statusLine + CRLF + FieldLines(fields) + CRLF
  }

  /** The value of the first field called `name`. */
  function FieldValue(fields: seq<Field>, name: string): (v: Option<string>)
    ensures v.Some? <==> exists i :: 0 <= i < |fields| && fields[i].name == name
  {
    if |fields| == 0 then None
    else if fields[0].name == name then Some(fields[0].value)
    else
      var rest := FieldValue(fields[1..], name);
      assert forall i :: 1 <= i < |fields| ==> fields[i] == fields[1..][i - 1];
      rest
  }

  /** The body length a head announces in its Content-Length field. */
  function DeclaredLength(fields: seq<Field>): Option<nat>
  {
    match FieldValue(fields, "Content-Length")
    case None => None
    case Some(v) => Some(ParseDecimal(v))
  }

  /** A Content-Length field written with `Decimal(n)` announces exactly `n`. */
  lemma DeclaredLengthOfDecimal(fields: seq<Field>, n: nat)
    requires FieldValue(fields, "Content-Length") == Some(Decimal(n))
    ensures DeclaredLength(fields) == Some(n)
  {
    ParseDecimalInvertsDecimal(n);
  }
}

=== FILE: io.dfy ===
/** The asynchronous I/O the handlers perform, seen from outside: every read and
    write is an outcome taken from a sequence supplied by the environment. */
module Io {

  newtype byte = x: int | 0 <= x < 256

  /** The error an asynchronous socket or pipe operation completes with. */
  datatype IoError = NoError | ConnectionReset | BrokenPipe | Eof | OtherError(errno: int)

  /** Peer reset, broken pipe and end-of-stream on a write mean the client went
      away: the handlers never retry these. */
  predicate IsClientAbort(e: IoError)
  {
    e.ConnectionReset? || e.BrokenPipe? || e.Eof?
  }

  /** The completion of one partial socket write: an error and the number of
      bytes the socket reports as transferred. */
  datatype WriteOutcome = WriteOutcome(err: IoError, n: nat)

  /** The completion of one file read; a failed read raises an exception out of
      the coroutine. */
  datatype ReadOutcome = ReadOk(n: nat) | ReadFailed

  /** The completion of one read from the child's output pipe. */
  datatype PipeRead = PipeRead(err: IoError, data: seq<byte>)

  /** `TransferState::MAX_RETRIES` and `TransferState::RETRY_DELAY` (milliseconds). */
  datatype TransferLimits = TransferLimits(maxRetries: nat, retryDelay: nat)

  function Min(a: int, b: int): int
  {
    if a <= b then a else b
  }

  /** The bytes a write actually moved: never more than were asked for. */
  function Moved(w: WriteOutcome, requested: nat): (k: nat)
    ensures k <= requested && k <= w.n
    ensures w.n <= requested ==> k == w.n
  {
    Min(w.n, requested)
  }

  /** asio's convention: a write that completes with an error moved nothing. */
  predicate FailuresTransferNothing(writes: seq<WriteOutcome>)
  {
    forall i :: 0 <= i < |writes| && writes[i].err != NoError ==> writes[i].n == 0
  }
}

=== FILE: post_handler.dfy ===
/** `PostHandler`: classifies a POST request against the route table, then
    either answers an endpoint without a script directly (a token for an
    authenticator, an acknowledgement otherwise) or runs the script and streams
    its output to the client. */
module PostHandler {

  import opened Wrappers
  import opened Io
  import opened Http
  import opened Cfg
  import opened Subprocess

  /** The helpers whose bodies are not part of this model: request parsing,
      the route authorisation check, JSON building and dumping, splitting the
      script's header line, and token signing (JWT with the configured server
      name, secret and the route's hashed role). */
  datatype PostCollaborators = PostCollaborators(
    extractEndpoint: seq<byte> -> (Code, Endpoint),
    trimToLower: string -> string,
    authenticate: Route -> Option<Code>,
    buildJson: seq<byte> -> (Code, string),
    extractHeaderLine: seq<byte> -> string,
    signToken: Route -> string,
    dump: map<string, string> -> string)

  /* ---------------- parseRequest */

  /** Which check turned a request away. */
  datatype Stage = SessionGone | Unparsable | NoRoute | WrongMethod | Unauthorized

  datatype ParseResult = Accepted(route: Route) | Rejected(stage: Stage, code: Code)

  predicate EndpointParses(buffer: seq<byte>, co: PostCollaborators)
  {
    co.extractEndpoint(buffer).0 == OK
  }

  function RouteFor(buffer: seq<byte>, cfg: Config, co: PostCollaborators): Option<Route>
  {
    FindRoute(cfg, co.extractEndpoint(buffer).1)
  }

  predicate AllowsPost(route: Route, co: PostCollaborators)
  {
    co.trimToLower(route.httpMethod) == "post"
  }

  /** `parseRequest`: the checks run in a fixed order and the first that fails
      decides the error. A request that reaches the authorisation check has
      passed all the others. */
  function ParseRequest(alive: bool, buffer: seq<byte>, cfg: Config, co: PostCollaborators): (r: ParseResult)
    ensures r.Rejected? && r.stage == SessionGone <==> !alive
    ensures r.Rejected? && r.stage == Unparsable <==> alive && !EndpointParses(buffer, co)
    ensures r.Rejected? && r.stage == NoRoute <==>
              alive && EndpointParses(buffer, co) && RouteFor(buffer, cfg, co).None?
    ensures r.Rejected? && r.stage == WrongMethod <==>
              alive && EndpointParses(buffer, co) && RouteFor(buffer, cfg, co).Some?
              && !AllowsPost(RouteFor(buffer, cfg, co).value, co)
    ensures r.Rejected? && r.stage == Unauthorized <==>
              alive && EndpointParses(buffer, co) && RouteFor(buffer, cfg, co).Some?
              && AllowsPost(RouteFor(buffer, cfg, co).value, co)
              && co.authenticate(RouteFor(buffer, cfg, co).value).Some?
    ensures r.Accepted? <==>
              alive && EndpointParses(buffer, co) && RouteFor(buffer, cfg, co).Some?
              && AllowsPost(RouteFor(buffer, cfg, co).value, co)
              && co.authenticate(RouteFor(buffer, cfg, co).value).None?
    ensures r.Rejected? && r.stage == SessionGone ==> r.code == InternalServerError
    ensures r.Rejected? && r.stage == Unparsable ==> r.code == co.extractEndpoint(buffer).0
    ensures r.Rejected? && r.stage == NoRoute ==> r.code == NotFound
    ensures r.Rejected? && r.stage == WrongMethod ==> r.code == MethodNotAllowed
    ensures r.Rejected? && r.stage == Unauthorized ==>
              r.code == co.authenticate(RouteFor(buffer, cfg, co).value).value
    ensures r.Accepted? ==> RouteFor(buffer, cfg, co) == Some(r.route)
  {
    if !alive then Rejected(SessionGone, InternalServerError)
    else
      var (code, endpoint) := co.extractEndpoint(buffer);
      if code != OK then Rejected(Unparsable, code)
      else
        match FindRoute(cfg, endpoint)
        case None => Rejected(NoRoute, NotFound)
        case Some(route) =>
          if co.trimToLower(route.httpMethod) != "post" then Rejected(WrongMethod, MethodNotAllowed)
          else
            match co.authenticate(route)
            case Some(e) => Rejected(Unauthorized, e)
            case None => Accepted(route)
  }

  /** A route whose method is not "post" is turned away before `authenticate`
      is reached: no authorisation check can change the result. */
  lemma WrongMethodNeverAuthenticates(alive: bool, buffer: seq<byte>, cfg: Config, co: PostCollaborators,
                                      other: Route -> Option<Code>)
    requires alive && EndpointParses(buffer, co) && RouteFor(buffer, cfg, co).Some?
    requires !AllowsPost(RouteFor(buffer, cfg, co).value, co)
    ensures ParseRequest(alive, buffer, cfg, co) == Rejected(WrongMethod, MethodNotAllowed)
    ensures ParseRequest(alive, buffer, cfg, co.(authenticate := other)) == ParseRequest(alive, buffer, cfg, co)
  {
  }

  /** An endpoint with no route is Not_Found whatever its method check or
      authorisation would say. */
  lemma UnknownEndpointIgnoresRouteChecks(alive: bool, buffer: seq<byte>, cfg: Config, co: PostCollaborators,
                                          trim: string -> string, auth: Route -> Option<Code>)
    requires alive && EndpointParses(buffer, co) && RouteFor(buffer, cfg, co).None?
    ensures ParseRequest(alive, buffer, cfg, co.(trimToLower := trim, authenticate := auth)) == Rejected(NoRoute, NotFound)
  {
  }

  /* ---------------- handleEmptyScript */

  const Acknowledgement: string := "Endpoint active, no script set"

  /** The JSON object an endpoint without a script answers with. */
  function EmptyScriptBody(route: Route, co: PostCollaborators): (body: map<string, string>)
    ensures route.isAuthenticator ==> body.Keys == {"token"} && body["token"] == co.signToken(route)
    ensures !route.isAuthenticator ==> body.Keys == {"message"} && body["message"] == Acknowledgement
  {
    if route.isAuthenticator then map["token" := co.signToken(route)] else map["message" := Acknowledgement]
  }

  function EmptyScriptFields(contentLength: nat): seq<Field>
  {
    [Field("Connection", "close"), Field("Content-Type", "application/json"), Field("Content-Length", Decimal(contentLength))]
  }

  /** `handleEmptyScript`'s response: the head announces the dumped body's
      length plus 2, and what follows the blank line is the dumped body and a
      CRLF. */
  function HandleEmptyScript(route: Route, co: PostCollaborators): (response: string)
    ensures var d := co.dump(EmptyScriptBody(route, co));
            response == EmptyScriptHeadPrefix + Decimal(|d| + 2) + "\r\n\r\n" + d + "\r\n"
  {
    var d := co.dump(EmptyScriptBody(route, co));
    EmptyScriptText(Decimal(|d| + 2), d);
    HeadText(StatusOk, EmptyScriptFields(|d| + 2)) + (d + CRLF)
  }

  /** Everything in the empty-script head before the length digits. */
  const EmptyScriptHeadPrefix: string :=
    "HTTP/1.1 200 OK\r\n" + "Connection: close\r\n" + "Content-Type: application/json\r\n" + "Content-Length: "

  lemma EmptyScriptText(length: string, d: string)
    ensures HeadText(StatusOk, [Field("Connection", "close"), Field("Content-Type", "application/json"), Field("Content-Length", length)])
            + (d + CRLF)
            == EmptyScriptHeadPrefix + length + "\r\n\r\n" + d + "\r\n"
  {
    var a, b, c := Field("Connection", "close"), Field("Content-Type", "application/json"), Field("Content-Length", length);
    FieldLinesOfThree(a, b, c);
    EmptyScriptPrefixText();
    assert CRLF + CRLF == "\r\n\r\n";
    RegroupEmptyScriptResponse(StatusOk, CRLF, FieldLine(a), FieldLine(b), "Content-Length", ": ", length, d);
  }

  lemma EmptyScriptPrefixText()
    ensures StatusOk + CRLF + FieldLine(Field("Connection", "close")) + FieldLine(Field("Content-Type", "application/json"))
            + "Content-Length" + ": " == EmptyScriptHeadPrefix
  {
    assert StatusOk + CRLF == "HTTP/1.1 200 OK\r\n";
    assert FieldLine(Field("Connection", "close")) == "Connection: close\r\n";
    assert FieldLine(Field("Content-Type", "application/json")) == "Content-Type: application/json\r\n";
    assert "Content-Length" + ": " == "Content-Length: ";
  }

  /** The empty-script response regrouped around its length digits and body. */
  lemma RegroupEmptyScriptResponse(st: string, nl: string, fa: string, fb: string, name: string, sep: string, v: string, d: string)
    ensures st + nl + (fa + fb + (name + sep + v + nl)) + nl + (d + nl)
            == (st + nl + fa + fb + name + sep) + v + (nl + nl) + d + nl
  {
  }

  /** The response is framed exactly: it is a head followed by a payload, and
      the head's Content-Length is the payload's length. */
  lemma EmptyScriptFraming(route: Route, co: PostCollaborators)
    ensures var payload := co.dump(EmptyScriptBody(route, co)) + CRLF;
            && HandleEmptyScript(route, co) == HeadText(StatusOk, EmptyScriptFields(|payload|)) + payload
            && DeclaredLength(EmptyScriptFields(|payload|)) == Some(|payload|)
  {
    var payload := co.dump(EmptyScriptBody(route, co)) + CRLF;
    var fields := EmptyScriptFields(|payload|);
    assert fields[1..][1..] == [fields[2]];
    assert "Connection"[3] != "Content-Length"[3];
    assert "Content-Type"[8] != "Content-Length"[8];
    assert FieldValue(fields, "Content-Length") == FieldValue(fields[1..], "Content-Length")
           == FieldValue(fields[1..][1..], "Content-Length") == Some(Decimal(|payload|));
    DeclaredLengthOfDecimal(fields, |payload|);
  }

  /* ---------------- sendResponse */

  /** The bytes one pipe read delivers into the buffer. */
  function Chunk(rd: PipeRead, bufSize: nat): seq<byte>
  {
    rd.data[..Min(|rd.data|, bufSize)]
  }

  /** `buffer.resize(n)`: keeps the first `n` bytes, or pads with zero bytes. */
  function Resized(b: seq<byte>, n: nat): (r: seq<byte>)
    ensures |r| == n
    ensures forall i :: 0 <= i < n ==> r[i] == (if i < |b| then b[i] else 0)
  {
    if n <= |b| then b[..n] else b + seq(n - |b|, _ => 0)
  }

  /** The buffer after the first read: the chunk over the start of the resized
      buffer, the rest left as it was. */
  function FirstReadBuffer(buffer0: seq<byte>, rd: PipeRead, bufSize: nat): (b: seq<byte>)
    ensures |b| == bufSize
    ensures b[..|Chunk(rd, bufSize)|] == Chunk(rd, bufSize)
    ensures b[|Chunk(rd, bufSize)|..] == Resized(buffer0, bufSize)[|Chunk(rd, bufSize)|..]
  {
    Chunk(rd, bufSize) + Resized(buffer0, bufSize)[|Chunk(rd, bufSize)|..]
  }

  function SumChunks(rds: seq<PipeRead>, bufSize: nat): nat
  {
    if |rds| == 0 then 0 else SumChunks(rds[..|rds| - 1], bufSize) + |Chunk(rds[|rds| - 1], bufSize)|
  }

  /** One more read adds its chunk to the sum. */
  lemma SumChunksStep(rds: seq<PipeRead>, k: nat, bufSize: nat)
    requires k < |rds|
    ensures SumChunks(rds[..k + 1], bufSize) == SumChunks(rds[..k], bufSize) + |Chunk(rds[k], bufSize)|
  {
    assert rds[..k + 1][..k] == rds[..k];
  }

  /** A read after which `sendResponse` stops reading: end of stream, or an
      empty read. */
  predicate EndsStream(rd: PipeRead, bufSize: nat)
  {
    rd.err == Eof || |Chunk(rd, bufSize)| == 0
  }

  /** A read that fails the transfer: any error other than end of stream. */
  predicate ReadFails(rd: PipeRead)
  {
    rd.err != NoError && rd.err != Eof
  }

  datatype StreamExit = StreamDone | StreamFailed(code: Code) | StreamPending

  /** Where in `writes` the inner loop stands once the chunks of the first `k`
      reads have each been forwarded in full, one after the other, or None
      when one of them is left unfinished. */
  function WritesAfterForwards(pipeReads: seq<PipeRead>, k: nat, bufSize: nat, writes: seq<WriteOutcome>): (w: Option<nat>)
    requires k <= |pipeReads|
    ensures w.Some? ==> w.value <= |writes|
    decreases k
  {
    if k == 0 then Some(0)
    else
      match WritesAfterForwards(pipeReads, k - 1, bufSize, writes)
      case None => None
      case Some(start) =>
        var len := |Chunk(pipeReads[k - 1], bufSize)|;
        var stop := ForwardStop(len, writes, start);
        if ForwardAfter(len, writes, start, stop) == len then Some(stop) else None
  }

  /** The chunks of the first `k` reads were forwarded in full, and the writes
      up to `used` stopped the inner loop on the chunk of read `k` before all
      of it had gone. */
  predicate ForwardCutShort(pipeReads: seq<PipeRead>, k: nat, used: nat, bufSize: nat, writes: seq<WriteOutcome>)
    requires k < |pipeReads|
  {
    var start := WritesAfterForwards(pipeReads, k, bufSize, writes);
    var len := |Chunk(pipeReads[k], bufSize)|;
    && start.Some?
    && used == ForwardStop(len, writes, start.value)
    && ForwardAfter(len, writes, start.value, used) < len
  }


  /** What `sendResponse` did: how it ended, `total_bytes` afterwards, the
      header line split from the buffer after the first read, and how many read and write
      outcomes it consumed. */
  datatype StreamResult = StreamResult(exit: StreamExit, total: nat, header: string, readsUsed: nat, writesUsed: nat)

  /** What `sendResponse` promises of its result `r`, from `total_bytes ==
      total0` and the buffer `buffer0`, whatever the outcomes of its pipe reads
      and socket writes. */
  predicate StreamOutcome(r: StreamResult, buffer0: seq<byte>, bufSize: nat, total0: nat, pipeReads: seq<PipeRead>,
                          writes: seq<WriteOutcome>, extractHeaderLine: seq<byte> -> string)
  {
    && r.readsUsed <= |pipeReads| && r.writesUsed <= |writes|
    && (0 < |pipeReads| ==> 0 < r.readsUsed && r.header == extractHeaderLine(FirstReadBuffer(buffer0, pipeReads[0], bufSize)))
    && total0 <= r.total
    // a write error is never retried: every write but the last one consumed succeeded
    && (forall i :: 0 <= i < r.writesUsed - 1 ==> writes[i].err == NoError)
    // every read but the last one consumed neither failed nor ended the stream
    && (forall i :: 0 <= i < r.readsUsed - 1 ==> !EndsStream(pipeReads[i], bufSize) && !ReadFails(pipeReads[i]))
    && (r.exit == StreamDone ==>
          && 0 < r.readsUsed
          && r.total == total0 + SumChunks(pipeReads[..r.readsUsed], bufSize)
          && EndsStream(pipeReads[r.readsUsed - 1], bufSize) && !ReadFails(pipeReads[r.readsUsed - 1])
          && (r.writesUsed == 0 || writes[r.writesUsed - 1].err == NoError))
    // the report is Client_Closed_Request exactly when the last write was a client abort
    && (r.exit == StreamFailed(ClientClosedRequest) <==>
          0 < r.writesUsed && IsClientAbort(writes[r.writesUsed - 1].err))
    // and Internal_Server_Error exactly when the last read failed or the last write failed otherwise
    && (r.exit == StreamFailed(InternalServerError) <==>
          || (0 < r.readsUsed && ReadFails(pipeReads[r.readsUsed - 1]))
          || (0 < r.writesUsed && writes[r.writesUsed - 1].err != NoError && !IsClientAbort(writes[r.writesUsed - 1].err)))
    && (r.exit.StreamFailed? ==> r.exit.code == ClientClosedRequest || r.exit.code == InternalServerError)
    // a failed chunk is not counted
    && (r.exit.StreamFailed? ==> 0 < r.readsUsed && r.total == total0 + SumChunks(pipeReads[..r.readsUsed - 1], bufSize))
    // the outcomes ran out before anything failed or ended the stream
    && (r.exit == StreamPending ==>
          && (r.readsUsed == |pipeReads| || r.writesUsed == |writes|)
          && (forall i :: 0 <= i < r.writesUsed ==> writes[i].err == NoError)
          && (forall i :: 0 <= i < r.readsUsed ==> !ReadFails(pipeReads[i]))
          && (|| r.total == total0 + SumChunks(pipeReads[..r.readsUsed], bufSize)
              || (0 < r.readsUsed && r.total == total0 + SumChunks(pipeReads[..r.readsUsed - 1], bufSize))))
    // the writes consumed are exactly those that forwarded each chunk read in full, except
    // that a write error, or running out of write outcomes, cuts short the chunk of the last read
    && (r.exit == StreamDone ==> WritesAfterForwards(pipeReads, r.readsUsed, bufSize, writes) == Some(r.writesUsed))
    && (r.exit.StreamFailed? ==>
          && 0 < r.readsUsed
          && (ReadFails(pipeReads[r.readsUsed - 1]) ==>
                WritesAfterForwards(pipeReads, r.readsUsed - 1, bufSize, writes) == Some(r.writesUsed))
          && (!ReadFails(pipeReads[r.readsUsed - 1]) ==>
                ForwardCutShort(pipeReads, r.readsUsed - 1, r.writesUsed, bufSize, writes)))
    // a transfer is left pending only between chunks when the reads ran out before one ended
    // the stream, or within a chunk when the writes ran out
    && (r.exit == StreamPending ==>
          || (&& r.readsUsed == |pipeReads|
              && (forall i :: 0 <= i < r.readsUsed ==> !EndsStream(pipeReads[i], bufSize))
              && r.total == total0 + SumChunks(pipeReads[..r.readsUsed], bufSize)
              && WritesAfterForwards(pipeReads, r.readsUsed, bufSize, writes) == Some(r.writesUsed))
          || (&& 0 < r.readsUsed && r.writesUsed == |writes|
              && r.total == total0 + SumChunks(pipeReads[..r.readsUsed - 1], bufSize)
              && ForwardCutShort(pipeReads, r.readsUsed - 1, r.writesUsed, bufSize, writes)))
  }

  /** `sendResponse`: forwards each chunk read from the child completely, with
      no retry on a write error. */
  method SendResponse(buffer0: seq<byte>, bufSize: nat, total0: nat, pipeReads: seq<PipeRead>, writes: seq<WriteOutcome>,
                      extractHeaderLine: seq<byte> -> string)
    returns (r: StreamResult)
    ensures StreamOutcome(r, buffer0, bufSize, total0, pipeReads, writes, extractHeaderLine)
  {
    var st := StreamResult(StreamPending, total0, "", 0, 0);
    while true
      invariant StreamProgress(st, buffer0, bufSize, total0, pipeReads, writes, extractHeaderLine)
      decreases |pipeReads| - st.readsUsed
    {
      if st.readsUsed == |pipeReads| {
        r := st.(exit := StreamPending);
        StreamEndsWhenReadsRunOut(r, buffer0, bufSize, total0, pipeReads, writes, extractHeaderLine);
        return;
      }
      var rd := pipeReads[st.readsUsed];
      // the header line is taken from the buffer after the first read
      var header := if st.readsUsed == 0 then extractHeaderLine(FirstReadBuffer(buffer0, rd, bufSize)) else st.header;
      var cur := st.(header := header, readsUsed := st.readsUsed + 1);
      if ReadFails(rd) {
        r := cur.(exit := StreamFailed(InternalServerError));
        StreamEndsOnReadFailure(st, r, buffer0, bufSize, total0, pipeReads, writes, extractHeaderLine);
        return;
      }
      var more;
      r, more := ForwardRead(buffer0, bufSize, total0, pipeReads, writes, extractHeaderLine, st, cur);
      if !more {
        return;
      }
      st := r;
    }
  }

  /** One pass of `sendResponse`'s loop past a read that did not fail: forwards
      its chunk and says whether the loop goes on. */
  method ForwardRead(buffer0: seq<byte>, bufSize: nat, total0: nat, pipeReads: seq<PipeRead>, writes: seq<WriteOutcome>,
                     extractHeaderLine: seq<byte> -> string, st: StreamResult, cur: StreamResult)
    returns (r: StreamResult, more: bool)
    requires ReadStep(st, cur, buffer0, bufSize, total0, pipeReads, writes, extractHeaderLine)
    requires !ReadFails(pipeReads[st.readsUsed]) && cur.writesUsed == st.writesUsed && cur.total == st.total
    ensures more ==> StreamProgress(r, buffer0, bufSize, total0, pipeReads, writes, extractHeaderLine)
                     && r.readsUsed == st.readsUsed + 1
    ensures !more ==> StreamOutcome(r, buffer0, bufSize, total0, pipeReads, writes, extractHeaderLine)
  {
    var rd := pipeReads[st.readsUsed];
    var chunk := Chunk(rd, bufSize);
    var f := ForwardChunk(chunk, writes, st.writesUsed);
    var next := cur.(writesUsed := f.writesUsed);
    match f.exit
    case ForwardAborted =>
      r, more := next.(exit := StreamFailed(ClientClosedRequest)), false;
      PassEndsOnWriteError(st, cur, f, next, r, buffer0, bufSize, total0, pipeReads, writes, extractHeaderLine);
    case ForwardFailed =>
      r, more := next.(exit := StreamFailed(InternalServerError)), false;
      PassEndsOnWriteError(st, cur, f, next, r, buffer0, bufSize, total0, pipeReads, writes, extractHeaderLine);
    case ForwardStalled =>
      r, more := next.(exit := StreamPending), false;
      PassEndsWhenWritesRunOut(st, cur, f, next, r, buffer0, bufSize, total0, pipeReads, writes, extractHeaderLine);
    case Forwarded =>
      // bytes_written is back to 0 for the next chunk
      next := next.(total := st.total + |chunk|);
      if EndsStream(rd, bufSize) {
        r, more := next.(exit := StreamDone), false;
        PassEndsAtEof(st, cur, f, next, r, buffer0, bufSize, total0, pipeReads, writes, extractHeaderLine);
      } else {
        r, more := next, true;
        PassContinues(st, cur, f, r, buffer0, bufSize, total0, pipeReads, writes, extractHeaderLine);
      }
  }

  /* Each way out of the inner loop, read in terms of the outer loop's state. */

  lemma PassEndsOnWriteError(st: StreamResult, cur: StreamResult, f: Forward, next: StreamResult, r: StreamResult,
                             buffer0: seq<byte>, bufSize: nat, total0: nat, pipeReads: seq<PipeRead>,
                             writes: seq<WriteOutcome>, extractHeaderLine: seq<byte> -> string)
    requires ReadStep(st, cur, buffer0, bufSize, total0, pipeReads, writes, extractHeaderLine)
    requires !ReadFails(pipeReads[st.readsUsed]) && cur.writesUsed == st.writesUsed && cur.total == st.total
    requires ForwardOutcome(Chunk(pipeReads[st.readsUsed], bufSize), writes, st.writesUsed, f)
    requires ForwardChunkBounds(writes, st.writesUsed, f)
    requires next == cur.(writesUsed := f.writesUsed)
    requires f.exit == ForwardAborted ==> r == next.(exit := StreamFailed(ClientClosedRequest))
    requires f.exit == ForwardFailed ==> r == next.(exit := StreamFailed(InternalServerError))
    requires f.exit == ForwardAborted || f.exit == ForwardFailed
    ensures StreamOutcome(r, buffer0, bufSize, total0, pipeReads, writes, extractHeaderLine)
  {
    StreamEndsOnWriteError(st, r, buffer0, bufSize, total0, pipeReads, writes, extractHeaderLine);
  }

  lemma PassEndsWhenWritesRunOut(st: StreamResult, cur: StreamResult, f: Forward, next: StreamResult, r: StreamResult,
                                 buffer0: seq<byte>, bufSize: nat, total0: nat, pipeReads: seq<PipeRead>,
                                 writes: seq<WriteOutcome>, extractHeaderLine: seq<byte> -> string)
    requires ReadStep(st, cur, buffer0, bufSize, total0, pipeReads, writes, extractHeaderLine)
    requires !ReadFails(pipeReads[st.readsUsed]) && cur.writesUsed == st.writesUsed && cur.total == st.total
    requires ForwardOutcome(Chunk(pipeReads[st.readsUsed], bufSize), writes, st.writesUsed, f)
    requires ForwardChunkBounds(writes, st.writesUsed, f)
    requires next == cur.(writesUsed := f.writesUsed)
    requires f.exit == ForwardStalled && r == next.(exit := StreamPending)
    ensures StreamOutcome(r, buffer0, bufSize, total0, pipeReads, writes, extractHeaderLine)
  {
    StreamEndsWhenWritesRunOut(st, r, buffer0, bufSize, total0, pipeReads, writes, extractHeaderLine);
  }

  lemma PassEndsAtEof(st: StreamResult, cur: StreamResult, f: Forward, next: StreamResult, r: StreamResult,
                      buffer0: seq<byte>, bufSize: nat, total0: nat, pipeReads: seq<PipeRead>,
                      writes: seq<WriteOutcome>, extractHeaderLine: seq<byte> -> string)
    requires ReadStep(st, cur, buffer0, bufSize, total0, pipeReads, writes, extractHeaderLine)
    requires !ReadFails(pipeReads[st.readsUsed]) && cur.writesUsed == st.writesUsed && cur.total == st.total
    requires ForwardOutcome(Chunk(pipeReads[st.readsUsed], bufSize), writes, st.writesUsed, f)
    requires ForwardChunkBounds(writes, st.writesUsed, f)
    requires next == cur.(writesUsed := f.writesUsed).(total := st.total + |Chunk(pipeReads[st.readsUsed], bufSize)|)
    requires f.exit == Forwarded && EndsStream(pipeReads[st.readsUsed], bufSize) && r == next.(exit := StreamDone)
    ensures StreamOutcome(r, buffer0, bufSize, total0, pipeReads, writes, extractHeaderLine)
  {
    StreamEndsAtEof(st, r, buffer0, bufSize, total0, pipeReads, writes, extractHeaderLine);
  }

  lemma PassContinues(st: StreamResult, cur: StreamResult, f: Forward, r: StreamResult,
                      buffer0: seq<byte>, bufSize: nat, total0: nat, pipeReads: seq<PipeRead>,
                      writes: seq<WriteOutcome>, extractHeaderLine: seq<byte> -> string)
    requires ReadStep(st, cur, buffer0, bufSize, total0, pipeReads, writes, extractHeaderLine)
    requires !ReadFails(pipeReads[st.readsUsed]) && cur.writesUsed == st.writesUsed && cur.total == st.total
    requires ForwardOutcome(Chunk(pipeReads[st.readsUsed], bufSize), writes, st.writesUsed, f)
    requires ForwardChunkBounds(writes, st.writesUsed, f)
    requires r == cur.(writesUsed := f.writesUsed).(total := st.total + |Chunk(pipeReads[st.readsUsed], bufSize)|)
    requires f.exit == Forwarded && !EndsStream(pipeReads[st.readsUsed], bufSize)
    ensures StreamProgress(r, buffer0, bufSize, total0, pipeReads, writes, extractHeaderLine)
    ensures r.readsUsed == st.readsUsed + 1
  {
    ProgressAfterForward(st, r, buffer0, bufSize, total0, pipeReads, writes, extractHeaderLine);
  }

  /** Which writes the inner loop consumed: every one before the last
      succeeded, and all of them when the chunk went out or the outcomes ran out. */
  predicate ForwardChunkBounds(writes: seq<WriteOutcome>, from: nat, f: Forward)
  {
    && from <= f.writesUsed <= |writes|
    && (forall i :: from <= i < f.writesUsed - 1 ==> writes[i].err == NoError)
    && (f.exit == Forwarded || f.exit == ForwardStalled ==> forall i :: from <= i < f.writesUsed ==> writes[i].err == NoError)
  }

  /** The chunk the inner loop forwards is the one the read delivered, so
      ending it extends the record of the writes by one chunk, forwarded in
      full or cut short. */
  lemma ForwardOfRead(st: StreamResult, used: nat, buffer0: seq<byte>, bufSize: nat, total0: nat,
                      pipeReads: seq<PipeRead>, writes: seq<WriteOutcome>, extractHeaderLine: seq<byte> -> string)
    requires StreamProgress(st, buffer0, bufSize, total0, pipeReads, writes, extractHeaderLine)
    requires st.readsUsed < |pipeReads|
    requires used == ForwardStop(|Chunk(pipeReads[st.readsUsed], bufSize)|, writes, st.writesUsed)
    ensures ForwardAfter(|Chunk(pipeReads[st.readsUsed], bufSize)|, writes, st.writesUsed, used)
              == |Chunk(pipeReads[st.readsUsed], bufSize)| ==>
              WritesAfterForwards(pipeReads, st.readsUsed + 1, bufSize, writes) == Some(used)
    ensures ForwardAfter(|Chunk(pipeReads[st.readsUsed], bufSize)|, writes, st.writesUsed, used)
              < |Chunk(pipeReads[st.readsUsed], bufSize)| ==>
              ForwardCutShort(pipeReads, st.readsUsed, used, bufSize, writes)
  {
  }

  datatype ForwardExit = Forwarded | ForwardAborted | ForwardFailed | ForwardStalled

  /** What the inner write loop of `sendResponse` did with one chunk: how it
      ended and where it stopped in the write outcomes. */
  datatype Forward = Forward(exit: ForwardExit, writesUsed: nat)

  /** The bytes of a chunk of `len` bytes that the write outcomes
      `writes[from..upto]` move, each counting what it reports up to what is
      left; an errored write counts nothing, since the loop returns before
      adding it. */
  function ForwardAfter(len: nat, writes: seq<WriteOutcome>, from: nat, upto: nat): (written: nat)
    requires from <= upto <= |writes|
    ensures written <= len
    decreases upto
  {
    if upto == from then 0
    else
      var before := ForwardAfter(len, writes, from, upto - 1);
      if writes[upto - 1].err == NoError then before + Moved(writes[upto - 1], len - before) else before
  }

  /** The inner loop can stop after the outcomes `writes[from..k]`: the chunk
      of `len` bytes has gone, the last write failed, or the outcomes ran out. */
  predicate ForwardStopsAt(len: nat, writes: seq<WriteOutcome>, from: nat, k: nat)
    requires from <= k <= |writes|
  {
    || k == |writes|
    || ForwardAfter(len, writes, from, k) == len
    || (from < k && writes[k - 1].err != NoError)
  }

  /** The first index at or after `k` where the inner loop can stop. */
  function ForwardStopFrom(len: nat, writes: seq<WriteOutcome>, from: nat, k: nat): (e: nat)
    requires from <= k <= |writes|
    ensures k <= e <= |writes| && ForwardStopsAt(len, writes, from, e)
    decreases |writes| - k
  {
    if ForwardStopsAt(len, writes, from, k) then k else ForwardStopFrom(len, writes, from, k + 1)
  }

  /** Where the inner loop forwarding a chunk of `len` bytes from `writes[from]` on stops. */
  function ForwardStop(len: nat, writes: seq<WriteOutcome>, from: nat): (e: nat)
    requires from <= |writes|
    ensures from <= e <= |writes| && ForwardStopsAt(len, writes, from, e)
  {
    ForwardStopFrom(len, writes, from, from)
  }

  /** The inner loop stops at the FIRST point where it can. */
  lemma {:induction false} ForwardStopIsFirst(len: nat, writes: seq<WriteOutcome>, from: nat, k: nat, j: nat)
    requires from <= k <= |writes|
    requires k <= j < ForwardStopFrom(len, writes, from, k)
    ensures !ForwardStopsAt(len, writes, from, j)
    decreases j - k
  {
    if k < j {
      ForwardStopIsFirst(len, writes, from, k + 1, j);
    }
  }

  /** What `ForwardChunk` promises of its result `f`: it stops at the first
      write that completes the chunk or fails, or when the outcomes run out;
      the chunk has gone exactly when the writes consumed moved all of it, and
      the error of the last write decides how a failure is reported. */
  predicate ForwardOutcome(chunk: seq<byte>, writes: seq<WriteOutcome>, from: nat, f: Forward)
    requires from <= |writes|
  {
    && f.writesUsed == ForwardStop(|chunk|, writes, from)
    && (f.exit == Forwarded <==> ForwardAfter(|chunk|, writes, from, f.writesUsed) == |chunk|)
    && (f.exit == ForwardAborted <==> from < f.writesUsed && IsClientAbort(writes[f.writesUsed - 1].err))
    && (f.exit == ForwardFailed <==>
          from < f.writesUsed && writes[f.writesUsed - 1].err != NoError && !IsClientAbort(writes[f.writesUsed - 1].err))
    && (f.exit == ForwardStalled ==> f.writesUsed == |writes|)
  }

  /** The inner loop of `sendResponse`: writes `chunk` until all of it has
      gone, from the write outcome at index `from` on; any error ends it. */
  method ForwardChunk(chunk: seq<byte>, writes: seq<WriteOutcome>, from: nat) returns (f: Forward)
    requires from <= |writes|
    ensures from <= f.writesUsed <= |writes|
    ensures forall i :: from <= i < f.writesUsed - 1 ==> writes[i].err == NoError
    ensures f.exit == Forwarded || f.exit == ForwardStalled ==>
              forall i :: from <= i < f.writesUsed ==> writes[i].err == NoError
    ensures f.exit == ForwardStalled ==> f.writesUsed == |writes|
    ensures f.exit == ForwardAborted ==> from < f.writesUsed && IsClientAbort(writes[f.writesUsed - 1].err)
    ensures f.exit == ForwardFailed ==>
              from < f.writesUsed && writes[f.writesUsed - 1].err != NoError && !IsClientAbort(writes[f.writesUsed - 1].err)
    // an empty chunk is not written at all
    ensures |chunk| == 0 ==> f == Forward(Forwarded, from)
    ensures ForwardOutcome(chunk, writes, from, f)
    ensures ForwardChunkBounds(writes, from, f)
  {
    var wi := from;
    var written: nat := 0;
    while written < |chunk|
      invariant from <= wi <= |writes|
      invariant forall i :: from <= i < wi ==> writes[i].err == NoError
      invariant |chunk| == 0 ==> wi == from
      invariant written == ForwardAfter(|chunk|, writes, from, wi)
      invariant ForwardStop(|chunk|, writes, from) == ForwardStopFrom(|chunk|, writes, from, wi)
      decreases |writes| - wi
    {
      if wi == |writes| {
        assert ForwardStopFrom(|chunk|, writes, from, wi) == wi;
        return Forward(ForwardStalled, wi);
      }
      assert !ForwardStopsAt(|chunk|, writes, from, wi);
      var w := writes[wi];
      wi := wi + 1;
      if w.err != NoError {
        assert ForwardStopFrom(|chunk|, writes, from, wi) == wi;
      }
      if IsClientAbort(w.err) {
        return Forward(ForwardAborted, wi);
      }
      if w.err != NoError {
        return Forward(ForwardFailed, wi);
      }
      written := written + Moved(w, |chunk| - written);
    }
    assert ForwardStopFrom(|chunk|, writes, from, wi) == wi;
    return Forward(Forwarded, wi);
  }

  /** What holds at the top of `sendResponse`'s loop, with `st` holding
      `total_bytes`, the header line and the outcomes consumed so far: every
      chunk read so far went out in full and was counted, and nothing failed
      or ended the stream. */
  predicate StreamProgress(st: StreamResult, buffer0: seq<byte>, bufSize: nat, total0: nat, pipeReads: seq<PipeRead>,
                           writes: seq<WriteOutcome>, extractHeaderLine: seq<byte> -> string)
  {
    && st.readsUsed <= |pipeReads| && st.writesUsed <= |writes|
    && st.total == total0 + SumChunks(pipeReads[..st.readsUsed], bufSize)
    && (forall i :: 0 <= i < st.readsUsed ==> !EndsStream(pipeReads[i], bufSize) && !ReadFails(pipeReads[i]))
    && (forall i :: 0 <= i < st.writesUsed ==> writes[i].err == NoError)
    && (0 < st.readsUsed ==> st.header == extractHeaderLine(FirstReadBuffer(buffer0, pipeReads[0], bufSize)))
    && WritesAfterForwards(pipeReads, st.readsUsed, bufSize, writes) == Some(st.writesUsed)
  }

  /** One more read consumed from `st`: the header line set on the first, the
      writes moved on with no error before the last one. */
  predicate ReadStep(st: StreamResult, r: StreamResult, buffer0: seq<byte>, bufSize: nat, total0: nat,
                     pipeReads: seq<PipeRead>, writes: seq<WriteOutcome>, extractHeaderLine: seq<byte> -> string)
  {
    && StreamProgress(st, buffer0, bufSize, total0, pipeReads, writes, extractHeaderLine)
    && st.readsUsed < |pipeReads| && r.readsUsed == st.readsUsed + 1
    && r.header == (if st.readsUsed == 0 then extractHeaderLine(FirstReadBuffer(buffer0, pipeReads[0], bufSize)) else st.header)
    && st.writesUsed <= r.writesUsed <= |writes|
    && (forall i :: st.writesUsed <= i < r.writesUsed - 1 ==> writes[i].err == NoError)
  }

  /* Each way out of the loop keeps `sendResponse`'s promise. */

  lemma StreamEndsWhenReadsRunOut(r: StreamResult, buffer0: seq<byte>, bufSize: nat, total0: nat,
                                  pipeReads: seq<PipeRead>, writes: seq<WriteOutcome>, extractHeaderLine: seq<byte> -> string)
    requires StreamProgress(r, buffer0, bufSize, total0, pipeReads, writes, extractHeaderLine)
    requires r.exit == StreamPending && r.readsUsed == |pipeReads|
    ensures StreamOutcome(r, buffer0, bufSize, total0, pipeReads, writes, extractHeaderLine)
  {
  }

  lemma StreamEndsOnReadFailure(st: StreamResult, r: StreamResult, buffer0: seq<byte>, bufSize: nat, total0: nat,
                                pipeReads: seq<PipeRead>, writes: seq<WriteOutcome>, extractHeaderLine: seq<byte> -> string)
    requires ReadStep(st, r, buffer0, bufSize, total0, pipeReads, writes, extractHeaderLine)
    requires ReadFails(pipeReads[st.readsUsed])
    requires r.exit == StreamFailed(InternalServerError) && r.writesUsed == st.writesUsed && r.total == st.total
    ensures StreamOutcome(r, buffer0, bufSize, total0, pipeReads, writes, extractHeaderLine)
  {
  }

  lemma StreamEndsOnWriteError(st: StreamResult, r: StreamResult, buffer0: seq<byte>, bufSize: nat, total0: nat,
                               pipeReads: seq<PipeRead>, writes: seq<WriteOutcome>, extractHeaderLine: seq<byte> -> string)
    requires ReadStep(st, r, buffer0, bufSize, total0, pipeReads, writes, extractHeaderLine)
    requires !ReadFails(pipeReads[st.readsUsed]) && r.total == st.total
    requires st.writesUsed < r.writesUsed && writes[r.writesUsed - 1].err != NoError
    requires r.writesUsed == ForwardStop(|Chunk(pipeReads[st.readsUsed], bufSize)|, writes, st.writesUsed)
    requires ForwardAfter(|Chunk(pipeReads[st.readsUsed], bufSize)|, writes, st.writesUsed, r.writesUsed)
             < |Chunk(pipeReads[st.readsUsed], bufSize)|
    requires r.exit == StreamFailed(if IsClientAbort(writes[r.writesUsed - 1].err) then ClientClosedRequest else InternalServerError)
    ensures StreamOutcome(r, buffer0, bufSize, total0, pipeReads, writes, extractHeaderLine)
  {
    ForwardOfRead(st, r.writesUsed, buffer0, bufSize, total0, pipeReads, writes, extractHeaderLine);
  }

  lemma StreamEndsWhenWritesRunOut(st: StreamResult, r: StreamResult, buffer0: seq<byte>, bufSize: nat, total0: nat,
                                   pipeReads: seq<PipeRead>, writes: seq<WriteOutcome>, extractHeaderLine: seq<byte> -> string)
    requires ReadStep(st, r, buffer0, bufSize, total0, pipeReads, writes, extractHeaderLine)
    requires !ReadFails(pipeReads[st.readsUsed]) && r.total == st.total
    requires r.writesUsed == |writes| && forall i :: st.writesUsed <= i < r.writesUsed ==> writes[i].err == NoError
    requires r.writesUsed == ForwardStop(|Chunk(pipeReads[st.readsUsed], bufSize)|, writes, st.writesUsed)
    requires ForwardAfter(|Chunk(pipeReads[st.readsUsed], bufSize)|, writes, st.writesUsed, r.writesUsed)
             < |Chunk(pipeReads[st.readsUsed], bufSize)|
    requires r.exit == StreamPending
    ensures StreamOutcome(r, buffer0, bufSize, total0, pipeReads, writes, extractHeaderLine)
  {
    ForwardOfRead(st, r.writesUsed, buffer0, bufSize, total0, pipeReads, writes, extractHeaderLine);
  }

  lemma StreamEndsAtEof(st: StreamResult, r: StreamResult, buffer0: seq<byte>, bufSize: nat, total0: nat,
                        pipeReads: seq<PipeRead>, writes: seq<WriteOutcome>, extractHeaderLine: seq<byte> -> string)
    requires ReadStep(st, r, buffer0, bufSize, total0, pipeReads, writes, extractHeaderLine)
    requires !ReadFails(pipeReads[st.readsUsed]) && EndsStream(pipeReads[st.readsUsed], bufSize)
    requires r.total == st.total + |Chunk(pipeReads[st.readsUsed], bufSize)|
    requires forall i :: st.writesUsed <= i < r.writesUsed ==> writes[i].err == NoError
    requires r.writesUsed == ForwardStop(|Chunk(pipeReads[st.readsUsed], bufSize)|, writes, st.writesUsed)
    requires ForwardAfter(|Chunk(pipeReads[st.readsUsed], bufSize)|, writes, st.writesUsed, r.writesUsed)
             == |Chunk(pipeReads[st.readsUsed], bufSize)|
    requires r.exit == StreamDone
    ensures StreamOutcome(r, buffer0, bufSize, total0, pipeReads, writes, extractHeaderLine)
  {
    ForwardOfRead(st, r.writesUsed, buffer0, bufSize, total0, pipeReads, writes, extractHeaderLine);
    SumChunksStep(pipeReads, st.readsUsed, bufSize);
  }

  lemma ProgressAfterForward(st: StreamResult, r: StreamResult, buffer0: seq<byte>, bufSize: nat, total0: nat,
                             pipeReads: seq<PipeRead>, writes: seq<WriteOutcome>, extractHeaderLine: seq<byte> -> string)
    requires ReadStep(st, r, buffer0, bufSize, total0, pipeReads, writes, extractHeaderLine)
    requires !ReadFails(pipeReads[st.readsUsed]) && !EndsStream(pipeReads[st.readsUsed], bufSize)
    requires r.total == st.total + |Chunk(pipeReads[st.readsUsed], bufSize)|
    requires forall i :: st.writesUsed <= i < r.writesUsed ==> writes[i].err == NoError
    requires r.writesUsed == ForwardStop(|Chunk(pipeReads[st.readsUsed], bufSize)|, writes, st.writesUsed)
    requires ForwardAfter(|Chunk(pipeReads[st.readsUsed], bufSize)|, writes, st.writesUsed, r.writesUsed)
             == |Chunk(pipeReads[st.readsUsed], bufSize)|
    ensures StreamProgress(r, buffer0, bufSize, total0, pipeReads, writes, extractHeaderLine)
  {
    ForwardOfRead(st, r.writesUsed, buffer0, bufSize, total0, pipeReads, writes, extractHeaderLine);
    SumChunksStep(pipeReads, st.readsUsed, bufSize);
  }

  /** With well-behaved I/O the stream completes: when no read fails, only the
      last read ends the stream, every write succeeds and reports at least a
      buffer's worth, and there is a write for each read, the transfer is done
      after all the reads and has counted every byte they delivered. */
  lemma GoodStreamCompletes(r: StreamResult, buffer0: seq<byte>, bufSize: nat, total0: nat, pipeReads: seq<PipeRead>,
                            writes: seq<WriteOutcome>, extractHeaderLine: seq<byte> -> string)
    requires StreamOutcome(r, buffer0, bufSize, total0, pipeReads, writes, extractHeaderLine)
    requires 0 < |pipeReads| <= |writes|
    requires forall i :: 0 <= i < |pipeReads| ==> !ReadFails(pipeReads[i])
    requires forall i :: 0 <= i < |pipeReads| - 1 ==> !EndsStream(pipeReads[i], bufSize)
    requires EndsStream(pipeReads[|pipeReads| - 1], bufSize)
    requires forall j :: 0 <= j < |writes| ==> writes[j].err == NoError && bufSize <= writes[j].n
    ensures r.exit == StreamDone && r.readsUsed == |pipeReads|
    ensures r.total == total0 + SumChunks(pipeReads, bufSize)
  {
    if 0 < r.readsUsed {
      GoodWritesFinishChunks(pipeReads, bufSize, writes, r.readsUsed - 1, r.writesUsed);
    }
    // no read fails and no write errs
    assert !r.exit.StreamFailed?;
    // the reads end the stream, and each chunk is forwarded in full
    assert r.exit != StreamPending;
    assert pipeReads[..|pipeReads|] == pipeReads;
  }

  /** With writes that always succeed and report a full buffer, no chunk is cut short. */
  lemma GoodWritesFinishChunks(pipeReads: seq<PipeRead>, bufSize: nat, writes: seq<WriteOutcome>, k: nat, used: nat)
    requires k < |pipeReads| <= |writes|
    requires forall j :: 0 <= j < |writes| ==> writes[j].err == NoError && bufSize <= writes[j].n
    ensures !ForwardCutShort(pipeReads, k, used, bufSize, writes)
  {
    GoodWritesForward(pipeReads, bufSize, writes, k);
    GoodForwardCompletes(|Chunk(pipeReads[k], bufSize)|, writes, WritesAfterForwards(pipeReads, k, bufSize, writes).value);
  }

  /** With writes that always succeed and report a full buffer, every chunk
      is forwarded with at most one write each. */
  lemma {:induction false} GoodWritesForward(pipeReads: seq<PipeRead>, bufSize: nat, writes: seq<WriteOutcome>, k: nat)
    requires k <= |pipeReads| <= |writes|
    requires forall j :: 0 <= j < |writes| ==> writes[j].err == NoError && bufSize <= writes[j].n
    ensures WritesAfterForwards(pipeReads, k, bufSize, writes).Some?
    ensures WritesAfterForwards(pipeReads, k, bufSize, writes).value <= k
  {
    if 0 < k {
      GoodWritesForward(pipeReads, bufSize, writes, k - 1);
      var start := WritesAfterForwards(pipeReads, k - 1, bufSize, writes).value;
      GoodForwardCompletes(|Chunk(pipeReads[k - 1], bufSize)|, writes, start);
    }
  }

  /** A chunk no longer than what the next, successful write reports is
      forwarded by that one write (by none when it is empty). */
  lemma GoodForwardCompletes(len: nat, writes: seq<WriteOutcome>, start: nat)
    requires start < |writes| && writes[start].err == NoError && len <= writes[start].n
    ensures ForwardStop(len, writes, start) <= start + 1
    ensures ForwardAfter(len, writes, start, ForwardStop(len, writes, start)) == len
  {
    if len == 0 {
      assert ForwardStopFrom(len, writes, start, start) == start;
    } else {
      assert ForwardAfter(len, writes, start, start + 1) == len;
      assert ForwardStopFrom(len, writes, start, start + 1) == start + 1;
    }
  }

  /* ---------------- handle */

  /** What `handle` did: its report, the parent's descriptor and process
      bookkeeping, the response written directly (empty-script path), the
      launch of the script and the streaming phase, when they happened. */
  datatype PostOutcome = PostOutcome(
    report: Report,
    proc: ProcState,
    response: Option<string>,
    launch: Option<Launch>,
    stream: Option<StreamResult>)

  /** The report once streaming has ended and the child has been waited on. */
  function StreamReport(s: StreamResult): Report
    requires !s.exit.StreamPending?
  {
    if s.exit.StreamFailed? then Failed(s.exit.code) else Completed(s.header, s.total)
  }

  /** The launch and streaming half of `handle`, for a route with a script. */
  method RunAndStream(request: seq<byte>, route: Route, co: PostCollaborators, env: SpawnEnv, bufSize: nat,
                      pipeReads: seq<PipeRead>, writes: seq<WriteOutcome>)
    returns (r: PostOutcome)
    ensures r.launch == Some(RunScript(true, request, route, co.buildJson, env)) && r.response.None?
    ensures r.launch.value.result.LaunchFailed? ==>
              r.report == Failed(r.launch.value.result.code) && r.proc == r.launch.value.proc && r.stream.None?
    ensures r.stream.Some? <==> r.launch.value.result.Reader?
    // the streaming phase starts from the request buffer with total_bytes at 0
    ensures r.stream.Some? ==> StreamOutcome(r.stream.value, request, bufSize, 0, pipeReads, writes, co.extractHeaderLine)
    // once streaming has ended, the child has been waited on exactly once before the report,
    // and only the read end of its output is still open
    ensures r.stream.Some? && !r.stream.value.exit.StreamPending? ==>
              && r.proc == Wait(r.launch.value.proc)
              && r.proc.waits == 1 && r.proc.open == {StdoutRead}
              && r.report == StreamReport(r.stream.value)
    ensures r.stream.Some? && r.stream.value.exit.StreamPending? ==>
              r.report == Pending && r.proc == r.launch.value.proc
    ensures r.proc.waits <= 1
  {
    var launch := RunScript(true, request, route, co.buildJson, env);
    if launch.result.LaunchFailed? {
      return PostOutcome(Failed(launch.result.code), launch.proc, None, Some(launch), None);
    }
    var stream := SendResponse(request, bufSize, 0, pipeReads, writes, co.extractHeaderLine);
    if stream.exit.StreamPending? {
      return PostOutcome(Pending, launch.proc, None, Some(launch), Some(stream));
    }
    var waited := Wait(launch.proc);
    return PostOutcome(StreamReport(stream), waited, None, Some(launch), Some(stream));
  }

  /** `PostHandler::handle`, as written. The session stays locked for the whole
      call, so `parseRequest` and `runScript` find it alive. `total_bytes`
      starts at 0. */
  method Handle(alive: bool, request: seq<byte>, cfg: Config, co: PostCollaborators, env: SpawnEnv, bufSize: nat,
                pipeReads: seq<PipeRead>, writes: seq<WriteOutcome>)
    returns (r: PostOutcome)
    ensures !alive ==> r.report == Silent && r.proc == Idle && r.launch.None? && r.response.None?
    ensures alive ==>
              var p := ParseRequest(true, request, cfg, co);
              // a rejected request is reported and launches nothing
              && (p.Rejected? ==> r.report == Failed(p.code) && r.proc == Idle && r.launch.None? && r.response.None?)
              // an empty script is answered directly and never runs a process
              && (p.Accepted? && p.route.script == "" ==>
                    && r.response == Some(HandleEmptyScript(p.route, co))
                    && r.report == CompletedResponse(HandleEmptyScript(p.route, co))
                    && r.proc == Idle && r.launch.None?)
              && (p.Accepted? && p.route.script != "" ==>
                    r.launch == Some(RunScript(true, request, p.route, co.buildJson, env)) && r.response.None?)
    ensures r.launch.Some? && r.launch.value.result.LaunchFailed? ==>
              r.report == Failed(r.launch.value.result.code) && r.proc == r.launch.value.proc && r.stream.None?
    ensures r.stream.Some? <==> r.launch.Some? && r.launch.value.result.Reader?
    ensures r.stream.Some? ==> StreamOutcome(r.stream.value, request, bufSize, 0, pipeReads, writes, co.extractHeaderLine)
    ensures r.stream.Some? && !r.stream.value.exit.StreamPending? ==>
              && r.proc == Wait(r.launch.value.proc)
              && r.proc.waits == 1 && r.proc.open == {StdoutRead}
              && r.report == StreamReport(r.stream.value)
    ensures r.stream.Some? && r.stream.value.exit.StreamPending? ==>
              r.report == Pending && r.proc == r.launch.value.proc
    ensures r.proc.waits <= 1
  {
    if !alive {
      return PostOutcome(Silent, Idle, None, None, None);
    }
    var p := ParseRequest(true, request, cfg, co);
    if p.Rejected? {
      return PostOutcome(Failed(p.code), Idle, None, None, None);
    }
    if p.route.script == "" {
      var response := HandleEmptyScript(p.route, co);
      return PostOutcome(CompletedResponse(response), Idle, Some(response), None, None);
    }
    r := RunAndStream(request, p.route, co, env, bufSize, pipeReads, writes);
  }
}

=== FILE: subprocess.dfy ===
/** The parent's side of launching a route's script (`runScript` and
    `runProcess`): which pipe ends it holds open, the child it spawned, and how
    often it waited for that child. */
module Subprocess {

  import opened Wrappers
  import opened Http
  import opened Cfg
  import opened Io

  /** `stdin_pipe[0]`, `stdin_pipe[1]`, `stdout_pipe[0]`, `stdout_pipe[1]`. */
  datatype PipeEnd = StdinRead | StdinWrite | StdoutRead | StdoutWrite

  const AllEnds: set<PipeEnd> := {StdinRead, StdinWrite, StdoutRead, StdoutWrite}

  /** A spawned program and the argument vector it was given. */
  datatype Child = Child(program: string, argv: seq<string>)

  /** The parent's descriptors and process bookkeeping. `strayCloses` counts
      `close()` calls on a descriptor the parent never obtained. */
  datatype ProcState = ProcState(open: set<PipeEnd>, child: Option<Child>, waits: nat, strayCloses: nat)

  const Idle: ProcState := ProcState({}, None, 0, 0)

  function Close(s: ProcState, e: PipeEnd): (t: ProcState)
    ensures t.open == s.open - {e} && t.child == s.child && t.waits == s.waits
    ensures t.strayCloses == s.strayCloses + (if e in s.open then 0 else 1)
  {
    if e in s.open then s.(open := s.open - {e}) else s.(strayCloses := s.strayCloses + 1)
  }

  /** Closes the ends in order. */
  function CloseEach(s: ProcState, ends: seq<PipeEnd>): (t: ProcState)
    ensures t.open == s.open - set e | e in ends
    ensures t.child == s.child && t.waits == s.waits
    ensures s.strayCloses <= t.strayCloses
    ensures (exists i :: 0 <= i < |ends| && ends[i] !in s.open) ==> s.strayCloses < t.strayCloses
    decreases |ends|
  {
    if |ends| == 0 then s
    else
      var t := CloseEach(Close(s, ends[0]), ends[1..]);
      assert forall i :: 1 <= i < |ends| ==> ends[i] == ends[1..][i - 1];
      t
  }

  /** `waitpid` on the child. */
  function Wait(s: ProcState): (t: ProcState)
    ensures t.waits == s.waits + 1
    ensures t.open == s.open && t.child == s.child && t.strayCloses == s.strayCloses
  {
    s.(waits := s.waits + 1)
  }

  /** What the system calls of a launch return: the two `pipe()` calls, the
      dup2 and close file actions, `posix_spawn`, and the count `write()`
      returns for the arguments (negative on failure). */
  datatype SpawnEnv = SpawnEnv(
    stdinPipeOk: bool,
    stdoutPipeOk: bool,
    dupActionsOk: bool,
    closeActionsOk: bool,
    spawnOk: bool,
    argsWritten: int)

  predicate SpawnSucceeds(env: SpawnEnv)
  {
    env.dupActionsOk && env.closeActionsOk && env.spawnOk
  }

  /** `runProcess`: on success the child runs the script with the script path as
      its only argument, and the parent has closed the ends the child uses. On
      failure nothing is closed here. */
  function RunProcess(s: ProcState, script: string, env: SpawnEnv): (r: (bool, ProcState))
    ensures r.0 <==> SpawnSucceeds(env)
    ensures !r.0 ==> r.1 == s
    ensures r.0 ==> && r.1.open == s.open - {StdinRead, StdoutWrite}
                    && r.1.child == Some(Child(script, [script]))
                    && r.1.waits == s.waits
  {
    if !env.dupActionsOk || !env.closeActionsOk || !env.spawnOk then (false, s)
    else
      var spawned := s.(child := Some(Child(script, [script])));
      (true, Close(Close(spawned, StdinRead), StdoutWrite))
  }

  datatype LaunchResult = Reader(end: PipeEnd) | LaunchFailed(code: Code)

  /** The outcome of `runScript`: the reader handed back or the error, the
      parent's bookkeeping, and the argument bytes the child was sent. */
  datatype Launch = Launch(result: LaunchResult, proc: ProcState, argsSent: string)

  predicate PipesCreated(env: SpawnEnv)
  {
    env.stdinPipeOk && env.stdoutPipeOk
  }

  /** `runScript`, as written. `buildJson` stands for `http::build_json` followed
      by `dump()`. */
  function RunScript(alive: bool, buffer: seq<byte>, route: Route, buildJson: seq<byte> -> (Code, string),
                     env: SpawnEnv): (l: Launch)
    ensures l.proc.waits == 0
    // every failure leaves no pipe end open in the parent
    ensures l.result.LaunchFailed? ==> l.proc.open == {}
    // success leaves exactly the read end of the child's output open
    ensures l.result.Reader? ==> l.result.end == StdoutRead && l.proc.open == {StdoutRead}
    ensures !alive ==> l == Launch(LaunchFailed(InternalServerError), Idle, "")
    ensures alive && buildJson(buffer).0 != OK ==> l == Launch(LaunchFailed(buildJson(buffer).0), Idle, "")
    ensures alive && buildJson(buffer).0 == OK && !(PipesCreated(env) && SpawnSucceeds(env) && 0 <= env.argsWritten) ==>
              l.result == LaunchFailed(InternalServerError)
    ensures l.proc.child.Some? <==> alive && buildJson(buffer).0 == OK && PipesCreated(env) && SpawnSucceeds(env)
    ensures l.proc.child.Some? ==> l.proc.child.value == Child(route.script, [route.script])
    ensures l.result.Reader? <==> l.proc.child.Some? && 0 <= env.argsWritten
    // a short write of the arguments is taken as success
    ensures l.result.Reader? ==> l.argsSent == buildJson(buffer).1[..Min(env.argsWritten, |buildJson(buffer).1|)]
    ensures 0 < l.proc.strayCloses <==> alive && buildJson(buffer).0 == OK && !PipesCreated(env)
  {
    if !alive then Launch(LaunchFailed(InternalServerError), Idle, "")
    else
      var (code, args) := buildJson(buffer);
      if code != OK then Launch(LaunchFailed(code), Idle, "")
      else if !env.stdinPipeOk then
        // neither pipe exists, yet all four descriptor variables are closed
        Launch(LaunchFailed(InternalServerError), CloseEach(Idle, [StdinRead, StdinWrite, StdoutRead, StdoutWrite]), "")
      else if !env.stdoutPipeOk then
        var stdinOnly := Idle.(open := {StdinRead, StdinWrite});
        Launch(LaunchFailed(InternalServerError), CloseEach(stdinOnly, [StdinRead, StdinWrite, StdoutRead, StdoutWrite]), "")
      else
        var piped := Idle.(open := AllEnds);
        var (ok, spawned) := RunProcess(piped, route.script, env);
        if !ok then
          Launch(LaunchFailed(InternalServerError), CloseEach(spawned, [StdinRead, StdinWrite, StdoutRead, StdoutWrite]), "")
        else if env.argsWritten < 0 then
          Launch(LaunchFailed(InternalServerError), CloseEach(spawned, [StdoutRead, StdinWrite]), "")
        else
          Launch(Reader(StdoutRead), Close(spawned, StdinWrite), args[..Min(env.argsWritten, |args|)])
  }

  /** As written: when writing the arguments fails, the child has been spawned
      but `runScript` returns without waiting for it, and the caller reports the
      error without waiting either. */
  lemma ArgsWriteFailureLeavesChildUnwaited(buffer: seq<byte>, route: Route, buildJson: seq<byte> -> (Code, string),
                                            env: SpawnEnv)
    requires buildJson(buffer).0 == OK && PipesCreated(env) && SpawnSucceeds(env) && env.argsWritten < 0
    ensures var l := RunScript(true, buffer, route, buildJson, env);
            l.result.LaunchFailed? && l.proc.child.Some? && l.proc.waits == 0
  {
  }

  /** As written: when the first `pipe()` fails, four descriptors the parent
      never obtained are closed. */
  lemma PipeFailureClosesUnopenedDescriptors(buffer: seq<byte>, route: Route, buildJson: seq<byte> -> (Code, string),
                                             env: SpawnEnv)
    requires buildJson(buffer).0 == OK && !env.stdinPipeOk
    ensures RunScript(true, buffer, route, buildJson, env).proc.strayCloses == 4
  {
    var s := Idle;
    var ends := [StdinRead, StdinWrite, StdoutRead, StdoutWrite];
    assert ends[1..] == [StdinWrite, StdoutRead, StdoutWrite];
    assert ends[1..][1..] == [StdoutRead, StdoutWrite];
    assert ends[1..][1..][1..] == [StdoutWrite];
    assert ends[1..][1..][1..][1..] == [];
  }

  /** `runScript` with the evident intent: close only the descriptors that were
      created, and reap a child that was spawned before the argument write failed. */
  function RunScriptCorrected(alive: bool, buffer: seq<byte>, route: Route, buildJson: seq<byte> -> (Code, string),
                              env: SpawnEnv): (l: Launch)
    ensures l.proc.strayCloses == 0
    ensures l.result.LaunchFailed? ==> l.proc.open == {}
    ensures l.result.LaunchFailed? && l.proc.child.Some? ==> l.proc.waits == 1
    ensures l.result.Reader? ==> l.result.end == StdoutRead && l.proc.open == {StdoutRead} && l.proc.waits == 0
    ensures l.proc.child.Some? ==> l.proc.child.value == Child(route.script, [route.script])
    ensures l.proc.child.None? ==> l.proc.waits == 0
    ensures l.result.Reader? <==> alive && buildJson(buffer).0 == OK && PipesCreated(env) && SpawnSucceeds(env)
                                  && 0 <= env.argsWritten
  {
    if !alive then Launch(LaunchFailed(InternalServerError), Idle, "")
    else
      var (code, args) := buildJson(buffer);
      if code != OK then Launch(LaunchFailed(code), Idle, "")
      else if !env.stdinPipeOk then Launch(LaunchFailed(InternalServerError), Idle, "")
      else if !env.stdoutPipeOk then
        var stdinOnly := Idle.(open := {StdinRead, StdinWrite});
        Launch(LaunchFailed(InternalServerError), CloseEach(stdinOnly, [StdinRead, StdinWrite]), "")
      else
        var piped := Idle.(open := AllEnds);
        var (ok, spawned) := RunProcess(piped, route.script, env);
        if !ok then
          Launch(LaunchFailed(InternalServerError), CloseEach(spawned, [StdinRead, StdinWrite, StdoutRead, StdoutWrite]), "")
        else if env.argsWritten < 0 then
          Launch(LaunchFailed(InternalServerError), Wait(CloseEach(spawned, [StdoutRead, StdinWrite])), "")
        else
          Launch(Reader(StdoutRead), Close(spawned, StdinWrite), args[..Min(env.argsWritten, |args|)])
  }

  /** The correction changes nothing on the paths that were already right: it
      agrees with `RunScript` whenever both pipes were created and the
      arguments were written (or no child was spawned). */
  lemma CorrectedAgreesWhenNothingLeaks(alive: bool, buffer: seq<byte>, route: Route,
                                        buildJson: seq<byte> -> (Code, string), env: SpawnEnv)
    requires PipesCreated(env) && (0 <= env.argsWritten || !SpawnSucceeds(env))
    ensures RunScriptCorrected(alive, buffer, route, buildJson, env) == RunScript(alive, buffer, route, buildJson, env)
  {
  }
}

=== FILE: transaction.dfy ===
/** The per-request record: a weak reference to its session, the socket, the
    receive buffer and an unsigned byte counter. */
module Transactions {

  import opened Io

  const ULongModulus: int := 0x1_0000_0000_0000_0000

  /** `unsigned long`: 64 bits, arithmetic wraps around. */
  newtype ulong = x: int | 0 <= x < 0x1_0000_0000_0000_0000

  /** `long`: 64-bit two's complement. */
  newtype long = x: int | -0x8000_0000_0000_0000 <= x < 0x8000_0000_0000_0000

  /** A `weak_ptr<Session>`: identifies a session that may already be gone. */
  datatype SessionRef = SessionRef(id: nat)

  /** A borrowed `Socket*`. */
  datatype SocketRef = SocketRef(id: nat)

  datatype Transaction = Transaction(session: SessionRef, sock: SocketRef, buffer: seq<byte>, bytes: ulong)

  /** The constructor that takes ownership of a receive buffer. */
  function NewTransaction(session: SessionRef, sock: SocketRef, buffer: seq<byte>): (t: Transaction)
    ensures t.session == session && t.sock == sock && t.buffer == buffer
    ensures t.bytes == 0
  {
    Transaction(session, sock, buffer, 0)
  }

  /** The two-argument constructor: the buffer starts empty. */
  function NewTransactionWithoutBuffer(session: SessionRef, sock: SocketRef): (t: Transaction)
    ensures t.session == session && t.sock == sock
    ensures t.buffer == [] && t.bytes == 0
  {
    Transaction(session, sock, [], 0)
  }

  /** `bytes += additional_bytes`: the signed argument is converted to unsigned
      and the sum wraps modulo 2^64. */
  function AddBytes(t: Transaction, additional: long): (r: Transaction)
    ensures r.session == t.session && r.sock == t.sock && r.buffer == t.buffer
    ensures 0 <= additional as int && t.bytes as int + additional as int < ULongModulus ==>
              r.bytes as int == t.bytes as int + additional as int
    ensures (r.bytes as int - t.bytes as int - additional as int) % ULongModulus == 0
  {
    t.(bytes := ((t.bytes as int + additional as int) % ULongModulus) as ulong)
  }

  /** Adding a count and then its negation restores the counter, wrap-around included. */
  lemma AddBytesThenSubtract(t: Transaction, a: long)
    requires a as int != -0x8000_0000_0000_0000
    ensures AddBytes(AddBytes(t, a), -a) == t
  {
    var u := AddBytes(t, a);
    var k := (t.bytes as int + a as int) / ULongModulus;
    assert u.bytes as int == t.bytes as int + a as int - k * ULongModulus;
    assert u.bytes as int + (-a) as int == t.bytes as int + (-k) * ULongModulus;
    ModuloShift(t.bytes as int, -k);
  }

  lemma ModuloShift(x: int, k: int)
    requires 0 <= x < ULongModulus
    ensures (x + k * ULongModulus) % ULongModulus == x
  {
  }

  /** On a fresh transaction, adding a count that fits makes the counter that count. */
  lemma FreshCounterCountsAdditions(session: SessionRef, sock: SocketRef, buffer: seq<byte>, a: long)
    requires 0 <= a as int
    ensures GetBytes(AddBytes(NewTransaction(session, sock, buffer), a)) as int == a as int
  {
  }

  /** `setBuffer`: replaces the buffer and nothing else. */
  function SetBuffer(t: Transaction, newBuffer: seq<byte>): (r: Transaction)
    ensures r.buffer == newBuffer
    ensures r.session == t.session && r.sock == t.sock && r.bytes == t.bytes
  {
    t.(buffer := newBuffer)
  }

  /** Only the last buffer set survives, and setting the current buffer changes nothing. */
  lemma SetBufferLastWins(t: Transaction, a: seq<byte>, b: seq<byte>)
    ensures SetBuffer(SetBuffer(t, a), b) == SetBuffer(t, b)
    ensures SetBuffer(t, t.buffer) == t
  {
  }

  function GetSocket(t: Transaction): SocketRef
  {
    t.sock
  }

  function GetBytes(t: Transaction): ulong
  {
    t.bytes
  }

  function GetBuffer(t: Transaction): seq<byte>
  {
    t.buffer
  }

  /** The accessors hand back what the constructor was given, and a buffer or
      byte update never changes the socket. */
  lemma AccessorsSeeConstruction(session: SessionRef, sock: SocketRef, buffer: seq<byte>, a: long, b: seq<byte>)
    ensures GetSocket(NewTransaction(session, sock, buffer)) == sock
    ensures GetBytes(NewTransaction(session, sock, buffer)) == 0
    ensures GetBuffer(NewTransactionWithoutBuffer(session, sock)) == []
    ensures GetSocket(SetBuffer(AddBytes(NewTransaction(session, sock, buffer), a), b)) == sock
  {
  }
}

=== FILE: wrappers.dfy ===
/** Optional values, used where the server hands out a pointer that may be null
    or an optional that may be empty. */
module Wrappers {

  datatype Option<+T> = None | Some(value: T)
}
